=== FILE: README.md ===
# Search and favourites of the clinic-weather app, in Dafny

This project models the search-and-favourites layer of a React weather and
clinic-finder app:

- the search hook keeps a live query and a submitted query;
- it filters the saved favourites and a district gazetteer on every keystroke;
- it merges favourites, districts and remote places into one capped list;
- a favourites store holds at most six saved locations;
- four result widgets page that list and move a keyboard cursor through it;
- the search page drags a bottom sheet between snap points and decides what a
  click on a favourite star does;
- a small classifier turns weather codes and temperatures into advice and icons.

Everything is a pure function over immutable datatypes. What the code gets
from outside the modelled files comes in as a parameter:

- the foreign Korean text matcher `isMatch`;
- the bundled gazetteer;
- the places the remote search returned for the submitted query;
- the first place the remote search finds for a district;
- `parseFloat`, which reads coordinate text;
- the fresh favourite id and creation time;
- the current position's reverse-geocoded address;
- the page's address lookups `getFavoriteByAddress` and `isFavoriteByAddress`;
- the drag movement, in viewport percent.

Modules follow the program's files:

| module | file |
|---|---|
| `Search` | `src/features/search/use-search.ts` |
| `FavoritesStore` | `src/shared/store/useFavoritesStore.ts` |
| `Districts` | `src/shared/lib/districtUtils.ts` |
| `Weather` | `src/shared/lib/weatherUtils.ts` |
| `SearchPage` | `src/pages/SearchPage.tsx` |
| `DesktopResults` | `src/widgets/search/desktop-search-results.tsx` |
| `DesktopSearchBox` | `src/widgets/search/desktop-search-box.tsx` |
| `MobileSearch` | `src/widgets/search/mobile-search-mode.tsx` |
| `DesktopCommand` | `src/widgets/search/desktop-search-command.tsx` |
| `Types` | `src/shared/types/index.ts` (the records) and `src/features/search/search-results.tsx` (the result item) |

Three support modules have no file of their own:

- `Text` models JavaScript's `trim`, `join` and string `length`.
- `Seqs` holds an order-preserving `Filter` with its specification `IsFilterOf`, plus `Map` and `Take`.
- `Wrappers` holds `Option` and `Result`.

`trim` removes the ECMAScript white-space and line-terminator characters.
`length` counts UTF-16 code units, so a character outside the Basic
Multilingual Plane, such as an emoji, counts as two (`Text.Utf16Length`).

The search box's input sits inside the dropdown's command element. An arrow
press in the input therefore runs the input's handler and then the command
element's handler, both reading the same render's state. Each asks for one
more page as a functional update, so a press near the end of the list loads
two pages (`DesktopSearchBox.InputPress`). This reading assumes the command
element hands its `onKeyDown` on and lets the event bubble. Its source,
the module `src/shared/ui/command`, is not part of this model.

The desktop search box's `isItemFavorite` (`src/widgets/search/desktop-search-box.tsx:105-113`) is the same rule as the page's `isResultFavorite`. Both are modelled by `SearchPage.IsResultFavorite`.

## What the code does not do

- **No scoring.** No relevance score or tier formula exists. The merged list is three capped groups laid end to end, favourites then districts then places (`Search.CombinedResults`).
- **No duplicate check.** The store never rejects a location that is already saved (`FavoritesStore.AddFavoriteAcceptsDuplicates`).
- **Stale places stay.** Remote places are not suppressed when the live query no longer equals the submitted one (`Search.EditedQueryKeepsPlaces`).
- **An empty query shows no favourites.** It does not list every favourite (`Search.EmptyQueryShowsOnlyPlaces`).

## Model

| member | source | states |
|---|---|---|
| Search.HandleInputChange | src/features/search/use-search.ts:45-47 | typing sets the live query to the new text and leaves the submitted query alone |
| Search.TriggerSearch | src/features/search/use-search.ts:50-54 | a submission stores the trimmed query exactly when it is at least two UTF-16 code units long; otherwise the state is unchanged |
| Search.AstralCharacterIsAccepted | src/features/search/use-search.ts:50-54 | a single emoji is two UTF-16 code units long, so submitting it alone is accepted |
| Text.Utf16Length | src/features/search/use-search.ts:40 | the UTF-16 length is the character count plus the number of characters outside the Basic Multilingual Plane; it lies between the character count and twice it, equals the character count exactly when no character lies outside the Basic Multilingual Plane, and is zero only for the empty text |
| Text.TwoAstralCharactersAreFourUnits | src/features/search/use-search.ts:51 | two emoji count as four UTF-16 code units, as `length` counts them |
| Search.ClearSearch | src/features/search/use-search.ts:83-86 | clearing empties both the live and the submitted query |
| Search.StepPreservesWellFormed | src/features/search/use-search.ts:45-86 | typing, submitting and clearing each keep the submitted query empty or a trimmed text of at least two UTF-16 code units |
| Search.RunPreservesWellFormed | src/features/search/use-search.ts:45-86 | over any sequence of user actions the submitted query stays empty or trimmed with at least two UTF-16 code units |
| Search.TriggerSearchIdempotent | src/features/search/use-search.ts:50-54 | submitting twice in a row is the same as submitting once |
| Search.FavoriteResults | src/features/search/use-search.ts:25-34 | an empty query gives no favourites; otherwise the result is exactly the favourites whose nickname, location name or address matches the trimmed query, in store order |
| Search.LocalResults | src/features/search/use-search.ts:19-22 | an empty query gives no districts; otherwise the result is the matching districts, each in display form, in gazetteer order, none containing a hyphen |
| Search.FavoriteGroup | src/features/search/use-search.ts:61-67 | the favourite group is the first min(n, 3) matches, item i carrying favourite i's location and nickname |
| Search.DistrictGroup | src/features/search/use-search.ts:70-72 | the district group is the first min(n, 5) districts in their order |
| Search.PlaceGroup | src/features/search/use-search.ts:75-77 | the place group is the first min(n, 10) remote places in their order |
| Search.CombinedResults | src/features/search/use-search.ts:57-80 | the merged list holds the first three favourites, then the first five districts, then the first ten places, each a prefix of its source in source order; its length is at most 18 |
| Search.Results | src/features/search/use-search.ts:57-80 | the hook's list is the merged list of the favourites and districts matching the live query and of the fetched places, the latter only for a submitted query of at least two UTF-16 code units; it has at most 18 items, and none when the live query is empty and no submission was accepted |
| Search.FetchedPlaces | src/features/search/use-search.ts:37-42 | the remote places are the fetched ones when the submitted query is at least two UTF-16 code units long, and none otherwise, in particular for an empty submitted query |
| Search.MergedKindByPosition | src/features/search/use-search.ts:57-80 | in a merged list an item is a favourite exactly in the first min(n, 3) positions, a district exactly in the next min(m, 5), and a place exactly after those |
| Search.CombinedResultsGroupOrder | src/features/search/use-search.ts:57-80 | every favourite item precedes every district item, which precedes every place item |
| Search.CombinedItemsFromSources | src/features/search/use-search.ts:57-80 | every favourite item at position i is favourite i, every district item is a given district, and every place item is a given place |
| Search.EmptyQueryShowsOnlyPlaces | src/features/search/use-search.ts:19-34 | with an empty live query the list has no favourite and no district items |
| Search.FavoriteItemsMatch | src/features/search/use-search.ts:25-67 | every favourite item shows a stored favourite that matches the trimmed query, with its location and nickname |
| Search.EditedQueryKeepsPlaces | src/features/search/use-search.ts:37-47 | after an accepted submission, editing the live query to anything keeps the first remote place in the list |
| Search.ConvertToLocation | src/features/search/use-search.ts:88-96 | a chosen place keeps its id and name; its address is the street address when non-empty, else the road address, and is empty only when both are; its latitude is read from `y` and its longitude from `x` |
| Text.Trim | src/features/search/use-search.ts:27 | the trimmed text is a slice of the input with only whitespace around it, and neither starts nor ends with whitespace |
| Text.TrimIdempotent | src/features/search/use-search.ts:50-54 | trimming an already trimmed query changes nothing |
| Text.TrimOfTrimmed | src/features/search/use-search.ts:50-54 | a text without surrounding whitespace is its own trimmed form |
| Text.TrimEmptyIff | src/features/search/use-search.ts:50-54 | a query trims to nothing exactly when every character is whitespace |
| Text.Join | src/widgets/search/mobile-search-mode.tsx:63-71 | joining no parts gives the empty text and joining one part gives that part |
| Text.JoinAppend | src/widgets/search/mobile-search-mode.tsx:63-71 | joining one more part appends the separator and that part |
| FavoritesStore.AddFavorite | src/shared/store/useFavoritesStore.ts:19-32 | adding fails with the capacity message exactly when six or more favourites exist; otherwise it appends one entry with the given location, nickname, fresh id and creation time and keeps every earlier entry |
| FavoritesStore.AddFavoriteAcceptsDuplicates | src/shared/store/useFavoritesStore.ts:19-31 | below capacity, adding a location that is already saved still succeeds and grows the list |
| FavoritesStore.RemoveFavorite | src/shared/store/useFavoritesStore.ts:34-38 | removal keeps exactly the entries with another id, in order; it is a no-op when the id is absent and shrinks the list when present |
| FavoritesStore.UpdateNickname | src/shared/store/useFavoritesStore.ts:40-46 | renaming changes only the nickname of entries with the id; length, order, ids, locations and timestamps are kept |
| FavoritesStore.UpdateNicknameAbsentId | src/shared/store/useFavoritesStore.ts:40-46 | renaming an id that is not stored changes nothing |
| FavoritesStore.IsFavorite | src/shared/store/useFavoritesStore.ts:48-50 | a location counts as favourite exactly when some entry's location has that id |
| FavoritesStore.GetFavorite | src/shared/store/useFavoritesStore.ts:52-54 | lookup returns the earliest entry for the location id, and nothing exactly when the location is not a favourite |
| FavoritesStore.CapacityInvariant | src/shared/store/useFavoritesStore.ts:19-46 | from at most six entries, no sequence of adds, removes and renames exceeds six |
| Districts.SearchDistricts | src/shared/lib/districtUtils.ts:5-14 | an empty query finds nothing; otherwise the result is exactly the gazetteer entries matching the trimmed query, in gazetteer order |
| Districts.SearchDistrictsDependsOnTrimmedQuery | src/shared/lib/districtUtils.ts:5-14 | two non-empty queries with the same trimmed form find the same districts |
| Districts.FormatDistrict | src/shared/lib/districtUtils.ts:16-19 | formatting keeps the length, turns every hyphen into a space, keeps every other character, and leaves no hyphen |
| Districts.FormatDistrictIdempotent | src/shared/lib/districtUtils.ts:16-19 | formatting twice is formatting once |
| Districts.FormatDistrictIdentity | src/shared/lib/districtUtils.ts:16-19 | a name without hyphens is left as it is |
| Weather.GetWeatherMessage | src/shared/lib/weatherUtils.ts:1-48 | 33 degrees or more gives the heat advice and -10 or less the cold advice; otherwise each code range (2xx, 3xx and 5xx, 6xx, 7xx, 800, 801-899) gives its advice, clouds giving the pleasant advice exactly between 15 and 25 degrees, and everything else the default |
| Weather.GetWeatherIcon | src/shared/lib/weatherUtils.ts:50-59 | each code range gets its icon, 3xx and 5xx share the rain icon, and every other integer gets the default icon |
| Weather.MessageAgreesWithIcon | src/shared/lib/weatherUtils.ts:1-59 | outside the temperature extremes, each icon appears exactly with its own advice |
| Weather.ExtremesIgnoreCode | src/shared/lib/weatherUtils.ts:1-8 | at extreme temperatures the advice does not depend on the weather code |
| SearchPage.HandleDragStart | src/pages/SearchPage.tsx:73-80 | pressing the handle starts a drag that remembers the current height |
| SearchPage.HandleDragMove | src/pages/SearchPage.tsx:82-95 | while dragging, the height is the start height plus the movement clamped to [20, 85]; outside a drag nothing changes |
| SearchPage.Snap | src/pages/SearchPage.tsx:97-107 | heights below 35 snap to 20, below 70 to 55, and others to 85 |
| SearchPage.HandleDragEnd | src/pages/SearchPage.tsx:97-107 | releasing ends the drag and snaps the height |
| SearchPage.SnapFixedPoints | src/pages/SearchPage.tsx:97-107 | snapping leaves a height unchanged exactly when it is 20, 55 or 85 |
| SearchPage.SnapIdempotentMonotone | src/pages/SearchPage.tsx:97-107 | snapping is idempotent and never reverses the order of two heights |
| SearchPage.DragRunInRange | src/pages/SearchPage.tsx:73-107 | whatever the pointer does, the sheet height stays within [20, 85] |
| SearchPage.HandleToggleFavorite | src/pages/SearchPage.tsx:248-286 | without a map location nothing happens; a favourite saved under the location's address leads to removal confirmation for it; otherwise six favourites give the limit notice and fewer the nickname prompt, a current position being offered under its reverse-geocoded address or the current-position label |
| SearchPage.ToggleFavoriteFollowUp | src/pages/SearchPage.tsx:248-286 | when the address lookup answers from the store, the removal it offers shrinks the store and the add it offers is accepted |
| SearchPage.IsResultFavorite | src/pages/SearchPage.tsx:404-412 | favourite items are starred, districts never, and places exactly when a favourite is saved under the street address or, failing that, the road address |
| SearchPage.HandleCommandFavoriteToggle | src/pages/SearchPage.tsx:415-473 | a starred item leads to removal confirmation of the favourite saved under its address (a favourite's address, a place's street or road address, nothing for a district) when there is one, and to nothing otherwise; an unstarred one at six favourites gives the limit notice; below six, a place is always offered as its converted location, a district exactly when a first remote place was found, under that place's id and coordinates and its address or the district itself, and anything not offered leads to nothing; an unstarred favourite item is never offered |
| SearchPage.StarAndToggleAgree | src/pages/SearchPage.tsx:404-473 | for a place, a lit star leads to removal of the favourite it was lit for, and an unlit one below capacity to the nickname prompt for an address with no favourite |
| DesktopResults.AllVisibleItems | src/widgets/search/desktop-search-results.tsx:40-46 | the rows are every favourite item followed by the first visibleCount other results |
| DesktopResults.FavoritesNeverPaged | src/widgets/search/desktop-search-results.tsx:40-46 | every favourite result is on screen whatever the page size |
| DesktopResults.HasMore | src/widgets/search/desktop-search-results.tsx:40-46 | more is available exactly when some result is not on screen |
| DesktopResults.PartitionSize | src/widgets/search/desktop-search-results.tsx:40-41 | favourite and other results together number as many as the results |
| DesktopResults.WrapDown | src/widgets/search/desktop-search-results.tsx:90-95 | ArrowDown moves to the next row, wrapping from the last to the first, and stays in range |
| DesktopResults.WrapUp | src/widgets/search/desktop-search-results.tsx:96-101 | ArrowUp moves to the previous row, wrapping from the first to the last, and stays in range |
| DesktopResults.WrapInverse | src/widgets/search/desktop-search-results.tsx:90-101 | up undoes down and down undoes up on every row |
| DesktopResults.HandleKeyDown | src/widgets/search/desktop-search-results.tsx:85-117 | an empty list or another key is not handled and changes nothing; on a non-empty list every other key is handled; ArrowDown and ArrowUp move the cursor to the wrapped next and previous row and keep it on a row; Enter and Escape leave the state alone, Enter choosing the row under the cursor exactly when there is one and Escape being passed on |
| DesktopResults.OnResultsChange | src/widgets/search/desktop-search-results.tsx:49-52 | new results show twenty rows with the cursor on the first |
| DesktopResults.LoadMore | src/widgets/search/desktop-search-results.tsx:55-75 | loading more adds exactly twenty to the page size and keeps the cursor |
| DesktopResults.LoadMoreExtends | src/widgets/search/desktop-search-results.tsx:40-59 | while more is hidden, loading more shows strictly more rows and keeps those already shown |
| DesktopSearchBox.TotalVisibleItems | src/widgets/search/desktop-search-box.tsx:46-52 | the row count is the favourite count plus min(visibleCount, other results), the length of the visible rows |
| DesktopSearchBox.SyncResults | src/widgets/search/desktop-search-box.tsx:55-59 | a new result count resets the page to twenty and the cursor to -1; the same count changes nothing |
| DesktopSearchBox.LoadMoreOnKeyboard | src/widgets/search/desktop-search-box.tsx:97-102 | twenty more rows load exactly when more are hidden and the new cursor is within five rows of the end |
| DesktopSearchBox.CursorDown | src/widgets/search/desktop-search-box.tsx:151-155 | ArrowDown moves to min(i + 1, total - 1), never past the last row; the page grows by twenty exactly when more is hidden and the new row is within five of the end, and is otherwise unchanged; the open flag and the remembered result count are kept |
| DesktopSearchBox.CursorUp | src/widgets/search/desktop-search-box.tsx:156-159 | ArrowUp moves to max(i - 1, 0) and never goes below the first row; the page, the open flag and the remembered result count are kept |
| DesktopSearchBox.InputKeyDown | src/widgets/search/desktop-search-box.tsx:141-160 | Enter submits unless an input method is composing; Escape clears a non-empty query and otherwise only closes the list; the arrows open the list and move the cursor |
| DesktopSearchBox.CommandKeyDown | src/widgets/search/desktop-search-box.tsx:163-171 | the list's own arrows move the cursor as in the input, other keys change nothing |
| DesktopSearchBox.InputPress | src/widgets/search/desktop-search-box.tsx:97-197 | a key press in the input ends with the input handler's cursor, open flag and request; ArrowDown near the end with more hidden adds two pages, forty rows, to the page size, and otherwise the page size is unchanged |
| DesktopSearchBox.InputArrowDownLoadsTwoPages | src/widgets/search/desktop-search-box.tsx:97-197 | such a press shows up to forty more non-favourite rows where one handler alone would show up to twenty |
| DesktopSearchBox.ArrowsKeepCursorInRange | src/widgets/search/desktop-search-box.tsx:151-171 | with rows to show, the arrows keep the cursor on a row or at -1 |
| DesktopSearchBox.DownThenUp | src/widgets/search/desktop-search-box.tsx:151-159 | down then up returns to the starting row except on the last row |
| DesktopSearchBox.DownStopsAtEnd | src/widgets/search/desktop-search-box.tsx:151-155 | on the last row ArrowDown does not wrap |
| DesktopSearchBox.SelectedName | src/widgets/search/desktop-search-box.tsx:124-133 | the chosen name is the place name, the favourite's nickname or its location's name when the nickname is empty, or the district |
| DesktopSearchBox.HandleSelect | src/widgets/search/desktop-search-box.tsx:124-138 | choosing a result closes the list and makes its name the live query, leaving the cursor, the page, the remembered result count and the submitted query alone |
| DesktopSearchBox.ChosenDistrictNameHasNoHyphen | src/widgets/search/desktop-search-box.tsx:124-138 | choosing a district from the merged list writes a hyphen-free name into the box |
| MobileSearch.VisibleResults | src/widgets/search/mobile-search-mode.tsx:100 | the rows on screen are the first visibleCount results |
| MobileSearch.HasMore | src/widgets/search/mobile-search-mode.tsx:100-101 | more is available exactly when some result is not on screen; otherwise every result is on screen |
| MobileSearch.ObserverLoadMore | src/widgets/search/mobile-search-mode.tsx:78-98 | the sentinel adds twenty rows only while results remain hidden |
| MobileSearch.LoadMoreExtendsPrefix | src/widgets/search/mobile-search-mode.tsx:78-101 | loading more shows strictly more rows and keeps those already shown |
| MobileSearch.LoadMoreBounded | src/widgets/search/mobile-search-mode.tsx:78-98 | the page size never runs more than one page past the results |
| MobileSearch.ResultsKey | src/widgets/search/mobile-search-mode.tsx:63-71 | the key of no results is empty, and of one result is that result's id or district text |
| MobileSearch.ResultsKeyAppend | src/widgets/search/mobile-search-mode.tsx:63-71 | a result added after at least one other extends the key by `-` and its own id or district text |
| MobileSearch.SyncResultsKey | src/widgets/search/mobile-search-mode.tsx:63-75 | a changed key resets the page size to twenty; the same key changes nothing |
| MobileSearch.KeyMayCollide | src/widgets/search/mobile-search-mode.tsx:63-75 | a place with id "1-2" and two places "1" and "2" give the same key, so switching between them keeps the page size |
| DesktopCommand.GroupResults | src/widgets/search/desktop-search-command.tsx:22-24 | each group is exactly the results of its kind in their original order |
| DesktopCommand.GroupsPartition | src/widgets/search/desktop-search-command.tsx:22-24 | the group sizes add up to the result count, and the groups together hold every result as often as the list does |
| DesktopCommand.PresentedOrder | src/widgets/search/desktop-search-command.tsx:37-113 | the palette lists a rearrangement of the results, every favourite before every place and every place before every district, and each kind in the order the results have it |
| DesktopCommand.EmptyMessageIffNoGroups | src/widgets/search/desktop-search-command.tsx:33-35 | the empty-state line shows exactly when every group is empty |
| DesktopCommand.GroupsOfCombinedResults | src/widgets/search/desktop-search-command.tsx:22-24 | regrouping the merged list gives back its favourite, place and district groups |
| DesktopCommand.PresentedOrderDiffersFromMerged | src/widgets/search/desktop-search-command.tsx:37-113 | with districts and places present, places are listed before districts, unlike the merged list |

## Left out

- The body of `isMatch`, from the Korean search library: it is an uninterpreted parameter. A whitespace-only query reaches `isMatch(_, "")`, and the model says nothing about its answer.
- The bundled `korea_districts.json`: the gazetteer is a parameter.
- The remote place search is an input sequence, used only when the submitted query is at least two UTF-16 code units long. Left out are the HTTP call, query caching and staleness, the loading flag and errors, which count as no places.
- `parseFloat` of coordinates: a parameter.
- Id and timestamp generation from `Date.now()` and `Math.random()`: the fresh id and time are parameters.
- Geolocation and reverse geocoding: the current address is a parameter.
- The pixel-to-viewport conversion `deltaY / window.innerHeight`: the drag movement is given in viewport percent.
- The touch and mouse wrappers around the drag handlers.
- IntersectionObserver and scroll listeners: loading more is a plain event.
- `scrollIntoView`, focus, blur and the delayed close on blur.
- Persistence of the store.
- The dialogs the toggle decisions open, and what confirming them does beyond the store operations.
- Presentation markup.
- `isFavoriteByAddress` and `getFavoriteByAddress`: the store file does not define them. They are caller-supplied functions.
- The optional `favoriteNickname` is a string. An absent nickname is the empty string.
- DesktopSearchBox.InputPress: the command element is taken to pass its `onKeyDown` on and to see the input's key events by bubbling; its own built-in keyboard handling is not modelled.
- SearchPage.HandleCommandFavoriteToggle: the remote search for a district's first place is awaited in the source. Here its outcome is the `firstPlace` parameter.
- Weather.GetWeatherMessage: temperatures are reals without NaN, and codes are integers.

=== FILE: desktop_command.dfy ===
/** The desktop command palette: the result list regrouped by kind and shown
    as favourites, then places, then districts. */
module DesktopCommand {
  import opened Types
  import opened Seqs
  import Search

  datatype CommandGroups = CommandGroups(
    favorites: seq<SearchResultItem>,
    places: seq<SearchResultItem>,
    districts: seq<SearchResultItem>)

  /** The three groups, each the results of its kind in their original order. */
  function GroupResults(results: seq<SearchResultItem>): (r: CommandGroups)
    ensures IsFilterOf(r.favorites, results, IsFavoriteItem)
    ensures IsFilterOf(r.places, results, IsPlaceItem)
    ensures IsFilterOf(r.districts, results, IsDistrictItem)
  {
    CommandGroups(Filter(results, IsFavoriteItem), Filter(results, IsPlaceItem), Filter(results, IsDistrictItem))
  }

  /** The rank of an item's group in the palette: favourites, then places,
      then districts. */
  function PaletteRank(item: SearchResultItem): nat
  {
    match item
    case FavoriteItem(_, _) => 0
    case PlaceItem(_) => 1
    case DistrictItem(_) => 2
  }

  /** The order the palette lists the results in: a rearrangement of the
      results that puts favourites first, places next and districts last. */
  function PresentedOrder(results: seq<SearchResultItem>): (r: seq<SearchResultItem>)
    ensures multiset(r) == multiset(results)
    ensures forall i, j :: 0 <= i < j < |r| ==> PaletteRank(r[i]) <= PaletteRank(r[j])
    ensures Filter(r, IsFavoriteItem) == Filter(results, IsFavoriteItem)
    ensures Filter(r, IsPlaceItem) == Filter(results, IsPlaceItem)
    ensures Filter(r, IsDistrictItem) == Filter(results, IsDistrictItem)
  {
    var g := GroupResults(results);
    GroupsPartition(results);
    RanksAscend(g);
    FilterOfTypedRuns(g.favorites, g.places, g.districts, IsFavoriteItem, 0);
    FilterOfTypedRuns(g.favorites, g.places, g.districts, IsPlaceItem, 1);
    FilterOfTypedRuns(g.favorites, g.places, g.districts, IsDistrictItem, 2);
    g.favorites + g.places + g.districts
  }

  /** Groups each of a single kind, laid out in palette order, ascend in rank. */
  lemma RanksAscend(g: CommandGroups)
    requires forall i :: 0 <= i < |g.favorites| ==> g.favorites[i].FavoriteItem?
    requires forall i :: 0 <= i < |g.places| ==> g.places[i].PlaceItem?
    requires forall i :: 0 <= i < |g.districts| ==> g.districts[i].DistrictItem?
    ensures var r := g.favorites + g.places + g.districts;
      forall i, j :: 0 <= i < j < |r| ==> PaletteRank(r[i]) <= PaletteRank(r[j])
  {
    var r := g.favorites + g.places + g.districts;
    forall i, j | 0 <= i < j < |r|
      ensures PaletteRank(r[i]) <= PaletteRank(r[j])
    {
      RankByPosition(g, i);
      RankByPosition(g, j);
    }
  }

  /** In groups laid out in palette order, an item's rank is fixed by its position. */
  lemma RankByPosition(g: CommandGroups, i: nat)
    requires forall i :: 0 <= i < |g.favorites| ==> g.favorites[i].FavoriteItem?
    requires forall i :: 0 <= i < |g.places| ==> g.places[i].PlaceItem?
    requires forall i :: 0 <= i < |g.districts| ==> g.districts[i].DistrictItem?
    requires i < |g.favorites| + |g.places| + |g.districts|
    ensures var nf, np := |g.favorites|, |g.places|;
      PaletteRank((g.favorites + g.places + g.districts)[i]) == if i < nf then 0 else if i < nf + np then 1 else 2
  {
    var r := g.favorites + g.places + g.districts;
    var nf, np := |g.favorites|, |g.places|;
    if i < nf {
      assert r[i] == g.favorites[i];
    } else if i < nf + np {
      assert r[i] == g.places[i - nf];
    } else {
      assert r[i] == g.districts[i - nf - np];
    }
  }

  /** The "no results" line appears when there is nothing to list. */
  predicate ShowsEmptyMessage(results: seq<SearchResultItem>)
  {
    |results| == 0
  }

  /** The groups partition the results: their sizes add up, and together they
      hold every result exactly as often as the list does. */
  lemma {:induction false} GroupsPartition(results: seq<SearchResultItem>)
    ensures var g := GroupResults(results);
      |g.favorites| + |g.places| + |g.districts| == |results|
    ensures var g := GroupResults(results);
      multiset(g.favorites + g.places + g.districts) == multiset(results)
    decreases |results|
  {
    if |results| > 0 {
      var x := results[0];
      var rest := results[1..];
      GroupsPartition(rest);
      var g, h := GroupResults(results), GroupResults(rest);
      assert results == [x] + rest;
      JoinGroupMultiset(x, h.favorites, h.places, h.districts);
      match x
      case FavoriteItem(_, _) =>
        assert g == CommandGroups([x] + h.favorites, h.places, h.districts);
      case PlaceItem(_) =>
        assert g == CommandGroups(h.favorites, [x] + h.places, h.districts);
      case DistrictItem(_) =>
        assert g == CommandGroups(h.favorites, h.places, [x] + h.districts);
    }
  }

  /** The empty-state line shows exactly when every group is empty. */
  lemma EmptyMessageIffNoGroups(results: seq<SearchResultItem>)
    ensures var g := GroupResults(results);
      ShowsEmptyMessage(results) <==> |g.favorites| == 0 && |g.places| == 0 && |g.districts| == 0
  {
    GroupsPartition(results);
  }

  /** Regrouping the merged search list recovers its three capped groups, and
      lists places before districts although the merged list has districts first. */
  lemma GroupsOfCombinedResults(favResults: seq<Favorite>, localResults: seq<string>, places: seq<KakaoPlace>)
    ensures var favItems, districtItems, placeItems :=
        Search.FavoriteGroup(favResults), Search.DistrictGroup(localResults), Search.PlaceGroup(places);
      && GroupResults(Search.CombinedResults(favResults, localResults, places)) == CommandGroups(favItems, placeItems, districtItems)
      && PresentedOrder(Search.CombinedResults(favResults, localResults, places)) == favItems + placeItems + districtItems
  {
    var favItems, districtItems, placeItems :=
      Search.FavoriteGroup(favResults), Search.DistrictGroup(localResults), Search.PlaceGroup(places);
    Search.CombinedResultsPieces(favResults, localResults, places);
    GroupsOfTypedRuns(favItems, districtItems, placeItems);
  }

  /** With both districts and places present, the palette's order is not the merged list's. */
  lemma PresentedOrderDiffersFromMerged(favResults: seq<Favorite>, localResults: seq<string>, places: seq<KakaoPlace>)
    requires |localResults| > 0 && |places| > 0
    ensures PresentedOrder(Search.CombinedResults(favResults, localResults, places)) != Search.CombinedResults(favResults, localResults, places)
  {
    var r := Search.CombinedResults(favResults, localResults, places);
    var nf := Min(|favResults|, Search.FavoriteCap);
    GroupsOfCombinedResults(favResults, localResults, places);
    assert r[nf].DistrictItem?;
    assert PresentedOrder(r)[nf] == PlaceItem(places[0]);
  }

  /** Regrouping a list made of a run of favourites, a run of districts and a
      run of places gives back the three runs. */
  lemma GroupsOfTypedRuns(favItems: seq<SearchResultItem>, districtItems: seq<SearchResultItem>, placeItems: seq<SearchResultItem>)
    requires forall i :: 0 <= i < |favItems| ==> favItems[i].FavoriteItem?
    requires forall i :: 0 <= i < |districtItems| ==> districtItems[i].DistrictItem?
    requires forall i :: 0 <= i < |placeItems| ==> placeItems[i].PlaceItem?
    ensures GroupResults(favItems + districtItems + placeItems) == CommandGroups(favItems, placeItems, districtItems)
  {
    FilterOfTypedRuns(favItems, districtItems, placeItems, IsFavoriteItem, 0);
    FilterOfTypedRuns(favItems, districtItems, placeItems, IsDistrictItem, 1);
    FilterOfTypedRuns(favItems, districtItems, placeItems, IsPlaceItem, 2);
  }
}

=== FILE: desktop_results.dfy ===
/** The desktop result list: favourites always shown, other results paged
    twenty at a time, and a keyboard cursor that wraps around. */
module DesktopResults {
  import opened Types
  import opened Wrappers
  import opened Seqs

  /** How many non-favourite results each page adds. */
  const ItemsPerPage: nat := 20

  /** `visibleCount` is how many non-favourite results are shown; `selectedIndex` the cursor. */
  datatype ListState = ListState(visibleCount: nat, selectedIndex: int)

  function Favs(results: seq<SearchResultItem>): seq<SearchResultItem>
  {
    Filter(results, IsFavoriteItem)
  }

  function NonFavs(results: seq<SearchResultItem>): seq<SearchResultItem>
  {
    Filter(results, IsNonFavoriteItem)
  }

  /** The rows on screen: every favourite, then the first `visibleCount` other results. */
  function AllVisibleItems(results: seq<SearchResultItem>, visibleCount: nat): (r: seq<SearchResultItem>)
    ensures |r| == |Favs(results)| + Min(visibleCount, |NonFavs(results)|)
    ensures r[..|Favs(results)|] == Favs(results)
    ensures r[|Favs(results)|..] == NonFavs(results)[..Min(visibleCount, |NonFavs(results)|)]
  {
    var favs := Favs(results);
    var r := favs + Take(NonFavs(results), visibleCount);
    assert r[..|favs|] == favs;
    r
  }

  /** More non-favourite results wait beyond the visible ones: some result is
      not on screen. */
  function HasMore(results: seq<SearchResultItem>, visibleCount: nat): (r: bool)
    ensures r <==> |AllVisibleItems(results, visibleCount)| < |results|
  {
    PartitionSize(results);
    visibleCount < |NonFavs(results)|
  }

  /** Paging never hides a favourite: whatever the page size, every favourite
      result is on screen, and everything on screen is a result. */
  lemma {:induction false} FavoritesNeverPaged(results: seq<SearchResultItem>, visibleCount: nat, k: nat)
    requires k < |results| && results[k].FavoriteItem?
    ensures results[k] in AllVisibleItems(results, visibleCount)
  {
    FilterKeeps(results, IsFavoriteItem, k);
    var r := AllVisibleItems(results, visibleCount);
    assert Favs(results) == r[..|Favs(results)|];
  }

  /** Favourite and non-favourite results together are all the results. */
  lemma {:induction false} PartitionSize(results: seq<SearchResultItem>)
    ensures |Favs(results)| + |NonFavs(results)| == |results|
    decreases |results|
  {
    if |results| > 0 {
      PartitionSize(results[1..]);
    }
  }

  /** The cursor one row down, wrapping from the last row to the first. */
  function WrapDown(i: int, n: nat): (r: int)
    requires n > 0
    ensures i >= -1 ==> 0 <= r < n
    ensures i < n - 1 ==> r == i + 1
    ensures i >= n - 1 ==> r == 0
  {
    if i < n - 1 then i + 1 else 0
  }

  /** The cursor one row up, wrapping from the first row to the last. */
  function WrapUp(i: int, n: nat): (r: int)
    requires n > 0
    ensures 0 < i <= n ==> 0 <= r < n
    ensures i > 0 ==> r == i - 1
    ensures i <= 0 ==> r == n - 1
  {
    if i > 0 then i - 1 else n - 1
  }

  /** Up undoes down and down undoes up for every row of a non-empty list. */
  lemma WrapInverse(i: int, n: nat)
    requires 0 <= i < n
    ensures WrapUp(WrapDown(i, n), n) == i
    ensures WrapDown(WrapUp(i, n), n) == i
  {
  }

  datatype Key = ArrowDown | ArrowUp | Enter | Escape | OtherKey

  /** The answer to a key press: whether the list handled it, the new state,
      the result chosen with Enter, and whether Escape was passed on. */
  datatype KeyOutcome = KeyOutcome(handled: bool, state: ListState, selected: Option<SearchResultItem>, escaped: bool)

  /** The list's keyboard handler. An empty list and unknown keys are left to
      the caller; Enter chooses the row under the cursor when there is one. */
  function HandleKeyDown(results: seq<SearchResultItem>, s: ListState, key: Key): (r: KeyOutcome)
    ensures var items := AllVisibleItems(results, s.visibleCount);
      && (|items| == 0 || key == OtherKey ==> r == KeyOutcome(false, s, None, false))
      && (r.state.visibleCount == s.visibleCount)
      && (r.selected.Some? <==> |items| > 0 && key == Enter && 0 <= s.selectedIndex < |items|)
      && (r.selected.Some? ==> r.selected.value == items[s.selectedIndex])
      && (r.escaped <==> |items| > 0 && key == Escape)
      && (|items| > 0 && key == ArrowDown && s.selectedIndex >= 0 ==> 0 <= r.state.selectedIndex < |items|)
      && (|items| > 0 && key == ArrowUp && 0 <= s.selectedIndex < |items| ==> 0 <= r.state.selectedIndex < |items|)
      && (|items| > 0 && key != OtherKey ==> r.handled)
      && (|items| > 0 && key == ArrowDown ==> r.state.selectedIndex == WrapDown(s.selectedIndex, |items|))
      && (|items| > 0 && key == ArrowUp ==> r.state.selectedIndex == WrapUp(s.selectedIndex, |items|))
      && (key == Enter || key == Escape ==> r.state == s)
  {
    var items := AllVisibleItems(results, s.visibleCount);
    var n := |items|;
    if n == 0 then KeyOutcome(false, s, None, false)
    else
      match key
      case ArrowDown => KeyOutcome(true, s.(selectedIndex := WrapDown(s.selectedIndex, n)), None, false)
      case ArrowUp => KeyOutcome(true, s.(selectedIndex := WrapUp(s.selectedIndex, n)), None, false)
      case Enter =>
        var chosen := if 0 <= s.selectedIndex < n then Some(items[s.selectedIndex]) else None;
        KeyOutcome(true, s, chosen, false)
      case Escape => KeyOutcome(true, s, None, true)
      case OtherKey => KeyOutcome(false, s, None, false)
  }

  /** New results show the first page with the cursor on the first row. */
  function OnResultsChange(s: ListState): (r: ListState)
    ensures r.visibleCount == ItemsPerPage && r.selectedIndex == 0
  {
    ListState(ItemsPerPage, 0)
  }

  /** Reaching the end of the list shows one more page. */
  function LoadMore(s: ListState): (r: ListState)
    ensures r.visibleCount == s.visibleCount + ItemsPerPage
    ensures r.selectedIndex == s.selectedIndex
  {
    s.(visibleCount := s.visibleCount + ItemsPerPage)
  }

  /** Loading more while more is hidden shows strictly more rows, and never
      moves or drops a row already on screen. */
  lemma LoadMoreExtends(results: seq<SearchResultItem>, s: ListState)
    requires HasMore(results, s.visibleCount)
    ensures var before, after := AllVisibleItems(results, s.visibleCount), AllVisibleItems(results, LoadMore(s).visibleCount);
      |before| < |after| && after[..|before|] == before
  {
    var favs := Favs(results);
    var before := AllVisibleItems(results, s.visibleCount);
    var after := AllVisibleItems(results, LoadMore(s).visibleCount);
    assert before == favs + before[|favs|..];
    assert after == favs + after[|favs|..];
  }
}

=== FILE: desktop_search_box.dfy ===
/** The desktop search box: its dropdown pages non-favourite results twenty at
    a time like the result list, but its keyboard cursor stops at both ends
    and pulls in the next page when it nears the last visible row. */
module DesktopSearchBox {
  import opened Types
  import opened Seqs
  import DesktopResults
  import Search

  const ItemsPerPage: nat := 20

  /** Rows from the end within which moving the cursor down loads another page. */
  const LoadMoreMargin: nat := 5

  /** `resultsLength` is the result count the box last saw; a different count resets it. */
  datatype BoxState = BoxState(visibleCount: nat, selectedIndex: int, open: bool, resultsLength: nat)

  function InitialBox(results: seq<SearchResultItem>): BoxState
  {
    BoxState(ItemsPerPage, -1, false, |results|)
  }

  /** The number of rows in the dropdown. */
  function TotalVisibleItems(results: seq<SearchResultItem>, visibleCount: nat): (r: nat)
    ensures r == |DesktopResults.AllVisibleItems(results, visibleCount)|
    ensures r == |DesktopResults.Favs(results)| + Min(visibleCount, |DesktopResults.NonFavs(results)|)
  {
    |DesktopResults.Favs(results)| + |Take(DesktopResults.NonFavs(results), visibleCount)|
  }

  /** When the number of results differs from the last one seen, the box goes
      back to the first page with no row selected. */
  function SyncResults(results: seq<SearchResultItem>, s: BoxState): (r: BoxState)
    ensures r.resultsLength == |results| && r.open == s.open
    ensures |results| != s.resultsLength ==> r.visibleCount == ItemsPerPage && r.selectedIndex == -1
    ensures |results| == s.resultsLength ==> r == s
  {
    if |results| != s.resultsLength then
      s.(resultsLength := |results|, visibleCount := ItemsPerPage, selectedIndex := -1)
    else s
  }

  /** Moving the cursor to `newIndex` loads another page when more results are
      hidden and the cursor is within five rows of the end. */
  function LoadMoreOnKeyboard(results: seq<SearchResultItem>, s: BoxState, newIndex: int): (r: BoxState)
    ensures var total := TotalVisibleItems(results, s.visibleCount);
      r.visibleCount == (if DesktopResults.HasMore(results, s.visibleCount) && newIndex >= total - LoadMoreMargin
                         then s.visibleCount + ItemsPerPage else s.visibleCount)
    ensures r.selectedIndex == s.selectedIndex && r.open == s.open && r.resultsLength == s.resultsLength
  {
    if DesktopResults.HasMore(results, s.visibleCount)
       && newIndex >= TotalVisibleItems(results, s.visibleCount) - LoadMoreMargin
    then s.(visibleCount := s.visibleCount + ItemsPerPage)
    else s
  }

  /** ArrowDown: one row down, but never past the last row, possibly loading more. */
  function CursorDown(results: seq<SearchResultItem>, s: BoxState): (r: BoxState)
    ensures var total := TotalVisibleItems(results, s.visibleCount);
      && r.selectedIndex == Min(s.selectedIndex + 1, total - 1)
      && r.selectedIndex <= total - 1
      && (s.selectedIndex < total - 1 ==> r.selectedIndex == s.selectedIndex + 1)
      && r.visibleCount == (if DesktopResults.HasMore(results, s.visibleCount) && r.selectedIndex >= total - LoadMoreMargin
                            then s.visibleCount + ItemsPerPage else s.visibleCount)
    ensures r.visibleCount >= s.visibleCount
    ensures r.open == s.open && r.resultsLength == s.resultsLength
  {
    var newIndex := Min(s.selectedIndex + 1, TotalVisibleItems(results, s.visibleCount) - 1);
    LoadMoreOnKeyboard(results, s.(selectedIndex := newIndex), newIndex)
  }

  /** ArrowUp: one row up, but never above the first row. */
  function CursorUp(s: BoxState): (r: BoxState)
    ensures r.selectedIndex == Max(s.selectedIndex - 1, 0) && r.selectedIndex >= 0
    ensures s.selectedIndex > 0 ==> r.selectedIndex == s.selectedIndex - 1
    ensures r.visibleCount == s.visibleCount
    ensures r.open == s.open && r.resultsLength == s.resultsLength
  {
    s.(selectedIndex := Max(s.selectedIndex - 1, 0))
  }

  /** What the box asks of the page: run the search, or clear the query. */
  datatype BoxRequest = NoRequest | SubmitSearch | ClearQuery

  /** The search input's keyboard handler. Enter submits unless an input method
      is still composing; Escape clears a non-empty query and otherwise only
      closes the dropdown; the arrows open the dropdown and move the cursor. */
  function InputKeyDown(results: seq<SearchResultItem>, s: BoxState, key: DesktopResults.Key, searchQuery: string, isComposing: bool)
    : (r: (BoxState, BoxRequest))
    ensures key == DesktopResults.Enter ==> r == (s, if isComposing then NoRequest else SubmitSearch)
    ensures key == DesktopResults.Escape && searchQuery != "" ==> r == (s, ClearQuery)
    ensures key == DesktopResults.Escape && searchQuery == "" ==> r == (s.(open := false), NoRequest)
    ensures key == DesktopResults.ArrowDown ==> r == (CursorDown(results, s.(open := true)), NoRequest)
    ensures key == DesktopResults.ArrowUp ==> r == (CursorUp(s.(open := true)), NoRequest)
    ensures key == DesktopResults.OtherKey ==> r == (s, NoRequest)
  {
    match key
    case Enter => if !isComposing then (s, SubmitSearch) else (s, NoRequest)
    case Escape => if searchQuery != "" then (s, ClearQuery) else (s.(open := false), NoRequest)
    case ArrowDown => (CursorDown(results, s.(open := true)), NoRequest)
    case ArrowUp => (CursorUp(s.(open := true)), NoRequest)
    case OtherKey => (s, NoRequest)
  }

  /** The dropdown's own arrow handling: the same cursor moves, without opening it. */
  function CommandKeyDown(results: seq<SearchResultItem>, s: BoxState, key: DesktopResults.Key): (r: BoxState)
    ensures key == DesktopResults.ArrowDown ==> r == CursorDown(results, s)
    ensures key == DesktopResults.ArrowUp ==> r == CursorUp(s)
    ensures key != DesktopResults.ArrowDown && key != DesktopResults.ArrowUp ==> r == s
  {
    match key
    case ArrowDown => CursorDown(results, s)
    case ArrowUp => CursorUp(s)
    case _ => s
  }

  /** A key press in the search input. The input sits inside the dropdown's
      command element, so the press reaches the input's handler and then,
      bubbling up, the command element's handler; both read the state of the
      same render. The cursor and the open flag end as the input's handler
      sets them (the command's handler writes the same cursor), while the
      page-count increments are functional updates and both apply: an arrow
      press near the end loads two pages at once. */
  function InputPress(results: seq<SearchResultItem>, s: BoxState, key: DesktopResults.Key, searchQuery: string, isComposing: bool)
    : (r: (BoxState, BoxRequest))
    ensures var (input, request) := InputKeyDown(results, s, key, searchQuery, isComposing);
      && r.1 == request
      && r.0.selectedIndex == input.selectedIndex && r.0.open == input.open && r.0.resultsLength == s.resultsLength
    ensures key != DesktopResults.ArrowDown ==> r.0.visibleCount == s.visibleCount
    ensures key == DesktopResults.ArrowDown ==>
      var total := TotalVisibleItems(results, s.visibleCount);
      var newIndex := Min(s.selectedIndex + 1, total - 1);
      r.0.visibleCount == if DesktopResults.HasMore(results, s.visibleCount) && newIndex >= total - LoadMoreMargin
                          then s.visibleCount + 2 * ItemsPerPage else s.visibleCount
  {
    var (input, request) := InputKeyDown(results, s, key, searchQuery, isComposing);
    var command := CommandKeyDown(results, s, key);
    (input.(visibleCount := input.visibleCount + (command.visibleCount - s.visibleCount)), request)
  }

  /** An arrow press in the input that loads more shows up to forty further
      non-favourite rows, twice what one page holds, where a press handled
      only once would show twenty. */
  lemma InputArrowDownLoadsTwoPages(results: seq<SearchResultItem>, s: BoxState, searchQuery: string, isComposing: bool)
    requires DesktopResults.HasMore(results, s.visibleCount)
    requires Min(s.selectedIndex + 1, TotalVisibleItems(results, s.visibleCount) - 1)
               >= TotalVisibleItems(results, s.visibleCount) - LoadMoreMargin
    ensures var r := InputPress(results, s, DesktopResults.ArrowDown, searchQuery, isComposing).0;
      var nonFavs := |DesktopResults.NonFavs(results)|;
      && TotalVisibleItems(results, r.visibleCount) == |DesktopResults.Favs(results)| + Min(s.visibleCount + 2 * ItemsPerPage, nonFavs)
      && TotalVisibleItems(results, CursorDown(results, s).visibleCount)
           == |DesktopResults.Favs(results)| + Min(s.visibleCount + ItemsPerPage, nonFavs)
  {
  }

  /** The cursor is on a row, or on no row at all (-1). */
  predicate CursorInRange(results: seq<SearchResultItem>, s: BoxState)
  {
    -1 <= s.selectedIndex < TotalVisibleItems(results, s.visibleCount)
  }

  /** With rows to show, the arrows keep the cursor on a row or on none. */
  lemma ArrowsKeepCursorInRange(results: seq<SearchResultItem>, s: BoxState)
    requires CursorInRange(results, s) && TotalVisibleItems(results, s.visibleCount) > 0
    ensures CursorInRange(results, CursorDown(results, s))
    ensures CursorInRange(results, CursorUp(s))
  {
    var d := CursorDown(results, s);
    assert TotalVisibleItems(results, d.visibleCount) >= TotalVisibleItems(results, s.visibleCount);
  }

  /** Down then up returns to the row the cursor started on, except on the last row. */
  lemma DownThenUp(results: seq<SearchResultItem>, s: BoxState)
    requires 0 <= s.selectedIndex < TotalVisibleItems(results, s.visibleCount) - 1
    ensures CursorUp(CursorDown(results, s)).selectedIndex == s.selectedIndex
  {
  }

  /** Held down, the cursor stops on the last row instead of wrapping. */
  lemma DownStopsAtEnd(results: seq<SearchResultItem>, s: BoxState)
    requires s.selectedIndex == TotalVisibleItems(results, s.visibleCount) - 1
    ensures CursorDown(results, s).selectedIndex == s.selectedIndex
  {
  }

  /** The name written into the search box when a result is chosen: the place
      name, the favourite's nickname (its location's name when the nickname is
      empty), or the district itself. */
  function SelectedName(item: SearchResultItem): (r: string)
    ensures item.PlaceItem? ==> r == item.place.placeName
    ensures item.FavoriteItem? && item.favoriteNickname != "" ==> r == item.favoriteNickname
    ensures item.FavoriteItem? && item.favoriteNickname == "" ==> r == item.location.name
    ensures item.DistrictItem? ==> r == item.district
  {
    match item
    case PlaceItem(place) => place.placeName
    case FavoriteItem(location, nickname) => if nickname != "" then nickname else location.name
    case DistrictItem(d) => d
  }

  /** Choosing a result closes the dropdown and makes its name the live query. */
  function HandleSelect(s: BoxState, search: Search.SearchState, item: SearchResultItem)
    : (r: (BoxState, Search.SearchState))
    ensures !r.0.open && r.0.selectedIndex == s.selectedIndex && r.0.visibleCount == s.visibleCount
    ensures r.0.resultsLength == s.resultsLength
    ensures r.1.searchQuery == SelectedName(item) && r.1.submittedQuery == search.submittedQuery
  {
    (s.(open := false), Search.HandleInputChange(search, SelectedName(item)))
  }

  /** Choosing a district from the merged list puts its display form, without
      hyphens, into the search box. */
  lemma ChosenDistrictNameHasNoHyphen(
    s: Search.SearchState, favs: seq<Favorite>, gazetteer: seq<District>, isMatch: Matcher, fetched: seq<KakaoPlace>)
    ensures var r := Search.Results(s, favs, gazetteer, isMatch, fetched);
      forall i :: 0 <= i < |r| && r[i].DistrictItem? ==> '-' !in SelectedName(r[i])
  {
    var lr := Search.LocalResults(gazetteer, isMatch, s.searchQuery);
    var r := Search.Results(s, favs, gazetteer, isMatch, fetched);
    forall i | 0 <= i < |r| && r[i].DistrictItem?
      ensures '-' !in SelectedName(r[i])
    {
      Search.CombinedItemsFromSources(
        Search.FavoriteResults(favs, isMatch, s.searchQuery), lr, Search.FetchedPlaces(s.submittedQuery, fetched), i);
    }
  }
}

=== FILE: districts.dfy ===
/** The district gazetteer: matching district names against a query and
    turning them into their display form. */
module Districts {
  import opened Types
  import opened Seqs
  import opened Text

  /** The gazetteer entries the matcher accepts for `query`, in gazetteer order.
      The bundled district list is the `gazetteer` parameter. */
  function SearchDistricts(gazetteer: seq<District>, isMatch: Matcher, query: string): (r: seq<District>)
    ensures |query| == 0 ==> r == []
    ensures |query| > 0 ==> IsFilterOf(r, gazetteer, d => isMatch(d, Trim(query)))
  {
    if |query| < 1 then []
    else
      var normalized := Trim(query);
      Filter(gazetteer, d => isMatch(d, normalized))
  }

  /** Queries that differ only in surrounding whitespace find the same districts. */
  lemma SearchDistrictsDependsOnTrimmedQuery(gazetteer: seq<District>, isMatch: Matcher, q1: string, q2: string)
    requires |q1| > 0 && |q2| > 0 && Trim(q1) == Trim(q2)
    ensures SearchDistricts(gazetteer, isMatch, q1) == SearchDistricts(gazetteer, isMatch, q2)
  {
    var r := SearchDistricts(gazetteer, isMatch, q1);
    FilterUnique(r, gazetteer, d => isMatch(d, Trim(q2)));
  }

  /** A district with every `-` replaced by a space, `replace(/-/g, " ")`. */
  function FormatDistrict(d: District): (r: string)
    ensures |r| == |d|
    ensures forall i :: 0 <= i < |d| ==> r[i] == (if d[i] == '-' then ' ' else d[i])
    ensures '-' !in r
  {
    if |d| == 0 then []
    else [if d[0] == '-' then ' ' else d[0]] + FormatDistrict(d[1..])
  }

  /** Formatting twice is formatting once. */
  lemma FormatDistrictIdempotent(d: District)
    ensures FormatDistrict(FormatDistrict(d)) == FormatDistrict(d)
  {
    FormatDistrictIdentity(FormatDistrict(d));
  }

  /** A name without hyphens is already in display form. */
  lemma FormatDistrictIdentity(d: District)
    requires '-' !in d
    ensures FormatDistrict(d) == d
  {
    var r := FormatDistrict(d);
    assert forall i :: 0 <= i < |d| ==> d[i] != '-';
  }
}

=== FILE: favorites.dfy ===
/** The favourites store: a list of at most six saved locations with
    add, remove-by-id, rename-by-id and lookup by location id. */
module FavoritesStore {
  import opened Types
  import opened Wrappers
  import opened Seqs

  /** The most favourites the store accepts. */
  const MaxFavorites: nat := 6

  /** The message of the error `addFavorite` throws when the store is full. */
  const CapacityMessage: string := "즐겨찾기는 최대 6개까지 추가할 수 있습니다."

  datatype StoreError = CapacityExceeded(message: string)

  /** Appends a new favourite for `location`. The fresh id and the timestamp
      (generated from the clock and a random number) are parameters.
      Fails, leaving the list as it is, once six favourites exist. */
  function AddFavorite(favs: seq<Favorite>, location: Location, nickname: string, freshId: string, now: int)
    : (r: Result<seq<Favorite>, StoreError>)
    ensures r.Failure? <==> |favs| >= MaxFavorites
    ensures r.Failure? ==> r.error.message == CapacityMessage
    ensures r.Success? ==>
      && |r.value| == |favs| + 1
      && r.value[..|favs|] == favs
      && r.value[|favs|].location == location
      && r.value[|favs|].nickname == nickname
      && r.value[|favs|].id == freshId
      && r.value[|favs|].createdAt == now
  {
    if |favs| >= MaxFavorites then Failure(CapacityExceeded(CapacityMessage))
    else Success(favs + [Favorite(freshId, location, nickname, now)])
  }

  /** The store does not look for an existing favourite of the same location:
      below capacity, adding a location already saved still succeeds. */
  lemma AddFavoriteAcceptsDuplicates(favs: seq<Favorite>, k: nat, nickname: string, freshId: string, now: int)
    requires k < |favs| < MaxFavorites
    ensures var r := AddFavorite(favs, favs[k].location, nickname, freshId, now);
      r.Success? && |r.value| == |favs| + 1
  {
  }

  predicate HasOtherId(id: string, fav: Favorite)
  {
    fav.id != id
  }

  /** Removes every favourite whose id is `id`; the rest keep their order. */
  function RemoveFavorite(favs: seq<Favorite>, id: string): (r: seq<Favorite>)
    ensures forall i :: 0 <= i < |r| ==> r[i].id != id
    ensures IsFilterOf(r, favs, f => HasOtherId(id, f))
    ensures (forall i :: 0 <= i < |favs| ==> favs[i].id != id) ==> r == favs
    ensures (exists i :: 0 <= i < |favs| && favs[i].id == id) ==> |r| < |favs|
  {
    var r := Filter(favs, f => HasOtherId(id, f));
    if forall i :: 0 <= i < |favs| ==> favs[i].id != id then
      FilterAll(favs, f => HasOtherId(id, f));
      r
    else
      var k :| 0 <= k < |favs| && favs[k].id == id;
      FilterShrinks(favs, f => HasOtherId(id, f), k);
      r
  }

  /** Gives every favourite whose id is `id` the nickname `nickname`. */
  function UpdateNickname(favs: seq<Favorite>, id: string, nickname: string): (r: seq<Favorite>)
    ensures |r| == |favs|
    ensures forall i :: 0 <= i < |favs| ==>
      && r[i].id == favs[i].id
      && r[i].location == favs[i].location
      && r[i].createdAt == favs[i].createdAt
      && r[i].nickname == (if favs[i].id == id then nickname else favs[i].nickname)
  {
    if |favs| == 0 then []
    else
      var head := if favs[0].id == id then favs[0].(nickname := nickname) else favs[0];
      [head] + UpdateNickname(favs[1..], id, nickname)
  }

  /** Renaming an id that is not in the store changes nothing. */
  lemma UpdateNicknameAbsentId(favs: seq<Favorite>, id: string, nickname: string)
    requires forall i :: 0 <= i < |favs| ==> favs[i].id != id
    ensures UpdateNickname(favs, id, nickname) == favs
  {
    var r := UpdateNickname(favs, id, nickname);
    assert forall i :: 0 <= i < |favs| ==> r[i] == favs[i];
  }

  /** Some favourite is saved for the location with id `locationId`. */
  function IsFavorite(favs: seq<Favorite>, locationId: string): (r: bool)
    ensures r <==> exists i :: 0 <= i < |favs| && favs[i].location.id == locationId
  {
    if |favs| == 0 then false
    else favs[0].location.id == locationId || IsFavorite(favs[1..], locationId)
  }

  /** `favs[i]` is the earliest favourite saved for the location with id `locationId`. */
  predicate IsFirstFor(favs: seq<Favorite>, i: int, locationId: string)
  {
    && 0 <= i < |favs|
    && favs[i].location.id == locationId
    && (forall j :: 0 <= j < i ==> favs[j].location.id != locationId)
  }

  /** The first favourite saved for the location with id `locationId`. */
  function GetFavorite(favs: seq<Favorite>, locationId: string): (r: Option<Favorite>)
    ensures r.None? <==> !IsFavorite(favs, locationId)
    ensures r.Some? ==> exists i :: IsFirstFor(favs, i, locationId) && favs[i] == r.value
  {
    if |favs| == 0 then None
    else if favs[0].location.id == locationId then Some(favs[0])
    else
      var r := GetFavorite(favs[1..], locationId);
      if r.Some? then
        var i :| IsFirstFor(favs[1..], i, locationId) && favs[1..][i] == r.value;
        assert IsFirstFor(favs, i + 1, locationId);
        r
      else r
  }

  /** One change a user can make to the store. */
  datatype StoreOp =
    | Add(location: Location, nickname: string, freshId: string, now: int)
    | Remove(id: string)
    | Rename(id: string, nickname: string)

  /** The list after `op`; a rejected add leaves it unchanged. */
  function Apply(favs: seq<Favorite>, op: StoreOp): seq<Favorite>
  {
    match op
    case Add(location, nickname, freshId, now) =>
      var r := AddFavorite(favs, location, nickname, freshId, now);
      if r.Success? then r.value else favs
    case Remove(id) => RemoveFavorite(favs, id)
    case Rename(id, nickname) => UpdateNickname(favs, id, nickname)
  }

  function ApplyAll(favs: seq<Favorite>, ops: seq<StoreOp>): seq<Favorite>
    decreases |ops|
  {
    if |ops| == 0 then favs else ApplyAll(Apply(favs, ops[0]), ops[1..])
  }

  /** No sequence of adds, removes and renames takes the store past six entries. */
  lemma {:induction false} CapacityInvariant(favs: seq<Favorite>, ops: seq<StoreOp>)
    requires |favs| <= MaxFavorites
    ensures |ApplyAll(favs, ops)| <= MaxFavorites
    decreases |ops|
  {
    if |ops| > 0 {
      CapacityInvariant(Apply(favs, ops[0]), ops[1..]);
    }
  }
}

=== FILE: mobile_search.dfy ===
/** The mobile full-screen search: results shown as a growing prefix, twenty
    more at a time, reset to the first page when the results change. */
module MobileSearch {
  import opened Types
  import opened Seqs
  import opened Text

  const ItemsPerPage: nat := 20

  /** `lastKey` is the key of the results the page count was last reset for. */
  datatype MobileState = MobileState(visibleCount: nat, lastKey: string)

  /** The rows on screen: the first `visibleCount` results. */
  function VisibleResults(results: seq<SearchResultItem>, visibleCount: nat): (r: seq<SearchResultItem>)
    ensures r == results[..Min(visibleCount, |results|)]
  {
    Take(results, visibleCount)
  }

  /** More is shown exactly when some result is still off screen; otherwise
      every result is on screen. */
  function HasMore(results: seq<SearchResultItem>, visibleCount: nat): (r: bool)
    ensures r <==> |VisibleResults(results, visibleCount)| < |results|
    ensures !r ==> VisibleResults(results, visibleCount) == results
  {
    visibleCount < |results|
  }

  /** The end-of-list sentinel came into view: one more page, but only while
      results remain hidden. */
  function ObserverLoadMore(results: seq<SearchResultItem>, s: MobileState): (r: MobileState)
    ensures |results| > s.visibleCount ==> r.visibleCount == s.visibleCount + ItemsPerPage
    ensures |results| <= s.visibleCount ==> r == s
    ensures r.lastKey == s.lastKey
  {
    if |results| > s.visibleCount then s.(visibleCount := s.visibleCount + ItemsPerPage) else s
  }

  /** Loading more shows strictly more rows and keeps the rows already shown. */
  lemma LoadMoreExtendsPrefix(results: seq<SearchResultItem>, s: MobileState)
    requires HasMore(results, s.visibleCount)
    ensures var before := VisibleResults(results, s.visibleCount);
      var after := VisibleResults(results, ObserverLoadMore(results, s).visibleCount);
      |before| < |after| && after[..|before|] == before
  {
  }

  /** Starting from a page count no larger than needed, loading never runs
      further than one page past the end of the results. */
  lemma LoadMoreBounded(results: seq<SearchResultItem>, s: MobileState)
    requires s.visibleCount < |results| + ItemsPerPage
    ensures ObserverLoadMore(results, s).visibleCount < |results| + ItemsPerPage
  {
  }

  /** The part of the change-detection key a result contributes: a place's id,
      a favourite location's id, or the district text. */
  function ResultKeyPart(item: SearchResultItem): string
  {
    match item
    case PlaceItem(place) => place.id
    case FavoriteItem(location, _) => location.id
    case DistrictItem(d) => d
  }

  /** The results' key parts joined by `-`, in result order. */
  function ResultsKey(results: seq<SearchResultItem>): (r: string)
    ensures |results| == 1 ==> r == ResultKeyPart(results[0])
    ensures |results| == 0 ==> r == ""
  {
    Join(Map(results, ResultKeyPart), "-")
  }

  /** A result added at the end of a non-empty list adds `-` and its key part to the key. */
  lemma ResultsKeyAppend(results: seq<SearchResultItem>, item: SearchResultItem)
    requires |results| > 0
    ensures ResultsKey(results + [item]) == ResultsKey(results) + "-" + ResultKeyPart(item)
  {
    MapConcat(results, [item], ResultKeyPart);
    assert Map([item], ResultKeyPart) == [ResultKeyPart(item)];
    JoinAppend(Map(results, ResultKeyPart), ResultKeyPart(item), "-");
  }

  /** A change of key goes back to the first page; the same key keeps the page count. */
  function SyncResultsKey(results: seq<SearchResultItem>, s: MobileState): (r: MobileState)
    ensures r.lastKey == ResultsKey(results)
    ensures ResultsKey(results) != s.lastKey ==> r.visibleCount == ItemsPerPage
    ensures ResultsKey(results) == s.lastKey ==> r == s
  {
    var key := ResultsKey(results);
    if key != s.lastKey then MobileState(ItemsPerPage, key) else s
  }

  /** The key does not determine the results: an id containing `-` joins to
      the same key as two ids, so switching between such lists keeps the page count. */
  lemma KeyMayCollide(a: KakaoPlace, b: KakaoPlace, c: KakaoPlace, s: MobileState)
    requires a.id == "1-2" && b.id == "1" && c.id == "2"
    requires s.lastKey == ResultsKey([PlaceItem(a)])
    ensures [PlaceItem(a)] != [PlaceItem(b), PlaceItem(c)]
    ensures SyncResultsKey([PlaceItem(b), PlaceItem(c)], s) == s
  {
    assert Map([PlaceItem(b), PlaceItem(c)], ResultKeyPart) == ["1", "2"];
    assert Join(["1", "2"], "-") == "1" + "-" + Join(["2"], "-");
  }
}

=== FILE: search.dfy ===
/** The search hook: the live query and the submitted query, the favourite and
    district filters run on every keystroke, and the merged result list. */
module Search {
  import opened Types
  import opened Seqs
  import opened Text
  import opened Districts

  /** `searchQuery` is the text in the box; `submittedQuery` the text of the
      last accepted submission, the key of the remote place search. */
  datatype SearchState = SearchState(searchQuery: string, submittedQuery: string)

  const InitialSearch := SearchState("", "")

  /** The shortest trimmed query a submission accepts and the remote search runs
      for, in UTF-16 code units as JavaScript's `length` counts them. */
  const MinSubmitLength: nat := 2

  /** At most this many items of each group enter the merged list. */
  const FavoriteCap: nat := 3
  const DistrictCap: nat := 5
  const PlaceCap: nat := 10

  /** Typing replaces the live query and nothing else. */
  function HandleInputChange(s: SearchState, query: string): (r: SearchState)
    ensures r.searchQuery == query
    ensures r.submittedQuery == s.submittedQuery
  {
    s.(searchQuery := query)
  }

  /** Submitting stores the trimmed query when it is at least two UTF-16 code
      units long, and otherwise ignores the submission. */
  function TriggerSearch(s: SearchState): (r: SearchState)
    ensures r.searchQuery == s.searchQuery
    ensures Utf16Length(Trim(s.searchQuery)) >= MinSubmitLength ==> r.submittedQuery == Trim(s.searchQuery)
    ensures Utf16Length(Trim(s.searchQuery)) < MinSubmitLength ==> r == s
  {
    var trimmed := Trim(s.searchQuery);
    if Utf16Length(trimmed) >= MinSubmitLength then s.(submittedQuery := trimmed) else s
  }

  /** Clearing empties both queries. */
  function ClearSearch(s: SearchState): (r: SearchState)
    ensures r.searchQuery == "" && r.submittedQuery == ""
  {
    SearchState("", "")
  }

  /** What the submitted query can be: nothing, or a trimmed text of at least two UTF-16 code units. */
  predicate SubmittedWellFormed(s: SearchState)
  {
    s.submittedQuery == "" || (Utf16Length(s.submittedQuery) >= MinSubmitLength && IsTrimmed(s.submittedQuery))
  }

  /** A user action on the search box. */
  datatype SearchEvent = InputChange(query: string) | Submit | Clear

  function Step(s: SearchState, e: SearchEvent): SearchState
  {
    match e
    case InputChange(query) => HandleInputChange(s, query)
    case Submit => TriggerSearch(s)
    case Clear => ClearSearch(s)
  }

  function Run(s: SearchState, events: seq<SearchEvent>): SearchState
    decreases |events|
  {
    if |events| == 0 then s else Run(Step(s, events[0]), events[1..])
  }

  /** Each action keeps the submitted query well formed. */
  lemma StepPreservesWellFormed(s: SearchState, e: SearchEvent)
    requires SubmittedWellFormed(s)
    ensures SubmittedWellFormed(Step(s, e))
  {
  }

  /** From the initial state, the submitted query is always empty or a trimmed
      text of at least two characters, whatever the user does. */
  lemma {:induction false} RunPreservesWellFormed(s: SearchState, events: seq<SearchEvent>)
    requires SubmittedWellFormed(s)
    ensures SubmittedWellFormed(Run(s, events))
    decreases |events|
  {
    if |events| > 0 {
      StepPreservesWellFormed(s, events[0]);
      RunPreservesWellFormed(Step(s, events[0]), events[1..]);
    }
  }

  /** A single character outside the Basic Multilingual Plane, such as an emoji,
      is two UTF-16 code units long and so is accepted as a submission. */
  lemma AstralCharacterIsAccepted()
    ensures var q := "\U{1F600}";
      TriggerSearch(SearchState(q, "")).submittedQuery == q
  {
    var q := "\U{1F600}";
    assert !IsWhitespace(q[0]);
    assert IsTrimmed(q);
    TrimOfTrimmed(q);
    assert Utf16Length(q[1..]) == 0;
  }

  /** Submitting the same text twice is the same as submitting it once. */
  lemma TriggerSearchIdempotent(s: SearchState)
    ensures TriggerSearch(TriggerSearch(s)) == TriggerSearch(s)
  {
  }

  /** A favourite matches when its nickname, its location's name or its
      location's address matches the query. */
  predicate FavoriteMatches(isMatch: Matcher, query: string, fav: Favorite)
  {
    isMatch(fav.nickname, query) || isMatch(fav.location.name, query) || isMatch(fav.location.address, query)
  }

  /** The favourites matching the trimmed live query, in store order; none for an empty query. */
  function FavoriteResults(favs: seq<Favorite>, isMatch: Matcher, searchQuery: string): (r: seq<Favorite>)
    ensures searchQuery == "" ==> r == []
    ensures searchQuery != "" ==> IsFilterOf(r, favs, f => FavoriteMatches(isMatch, Trim(searchQuery), f))
  {
    if searchQuery == "" then []
    else
      var query := Trim(searchQuery);
      Filter(favs, f => FavoriteMatches(isMatch, query, f))
  }

  /** The matching districts in display form; none for an empty query. */
  function LocalResults(gazetteer: seq<District>, isMatch: Matcher, searchQuery: string): (r: seq<string>)
    ensures searchQuery == "" ==> r == []
    ensures forall i :: 0 <= i < |r| ==> '-' !in r[i]
    ensures searchQuery != "" ==>
      var found := SearchDistricts(gazetteer, isMatch, searchQuery);
      |r| == |found| && forall i :: 0 <= i < |r| ==> r[i] == FormatDistrict(found[i])
  {
    if searchQuery == "" then []
    else Map(SearchDistricts(gazetteer, isMatch, searchQuery), FormatDistrict)
  }

  /** The remote places on hand: the search runs only for a submitted query of
      at least two UTF-16 code units, and yields nothing otherwise. `fetched` is what
      the remote search returned for `submittedQuery` (nothing on failure). */
  function FetchedPlaces(submittedQuery: string, fetched: seq<KakaoPlace>): (r: seq<KakaoPlace>)
    ensures Utf16Length(submittedQuery) >= MinSubmitLength ==> r == fetched
    ensures Utf16Length(submittedQuery) < MinSubmitLength ==> r == []
    ensures submittedQuery == "" ==> r == []
  {
    if Utf16Length(submittedQuery) >= MinSubmitLength then fetched else []
  }

  function ToFavoriteItem(fav: Favorite): SearchResultItem
  {
    FavoriteItem(fav.location, fav.nickname)
  }

  function ToDistrictItem(d: string): SearchResultItem
  {
    DistrictItem(d)
  }

  function ToPlaceItem(place: KakaoPlace): SearchResultItem
  {
    PlaceItem(place)
  }

  /** The favourite group of the merged list: the first three matches, each
      shown with its location and nickname. */
  function FavoriteGroup(favResults: seq<Favorite>): (r: seq<SearchResultItem>)
    ensures |r| == Min(|favResults|, FavoriteCap)
    ensures forall i :: 0 <= i < |r| ==> r[i] == FavoriteItem(favResults[i].location, favResults[i].nickname)
  {
    Map(Take(favResults, FavoriteCap), ToFavoriteItem)
  }

  /** The district group: the first five districts in display form. */
  function DistrictGroup(localResults: seq<string>): (r: seq<SearchResultItem>)
    ensures |r| == Min(|localResults|, DistrictCap)
    ensures forall i :: 0 <= i < |r| ==> r[i] == DistrictItem(localResults[i])
  {
    Map(Take(localResults, DistrictCap), ToDistrictItem)
  }

  /** The place group: the first ten remote places. */
  function PlaceGroup(places: seq<KakaoPlace>): (r: seq<SearchResultItem>)
    ensures |r| == Min(|places|, PlaceCap)
    ensures forall i :: 0 <= i < |r| ==> r[i] == PlaceItem(places[i])
  {
    Map(Take(places, PlaceCap), ToPlaceItem)
  }

  /** The merged list: the first three favourites, then the first five
      districts, then the first ten places, each group in its own order. */
  function CombinedResults(favResults: seq<Favorite>, localResults: seq<string>, places: seq<KakaoPlace>)
    : (r: seq<SearchResultItem>)
    ensures MergedFrom(r, favResults, localResults, places)
    ensures |r| <= FavoriteCap + DistrictCap + PlaceCap
  {
    var favItems, districtItems, placeItems := FavoriteGroup(favResults), DistrictGroup(localResults), PlaceGroup(places);
    GroupsLaidEndToEnd(favResults, localResults, places, favItems, districtItems, placeItems);
    favItems + districtItems + placeItems
  }

  /** `r` holds the first three favourites, then the first five districts,
      then the first ten places, each group in its own order. */
  predicate MergedFrom(r: seq<SearchResultItem>, favResults: seq<Favorite>, localResults: seq<string>, places: seq<KakaoPlace>)
  {
    var nf, nd, np := Min(|favResults|, FavoriteCap), Min(|localResults|, DistrictCap), Min(|places|, PlaceCap);
    && |r| == nf + nd + np
    && (forall i :: 0 <= i < nf ==> r[i] == FavoriteItem(favResults[i].location, favResults[i].nickname))
    && (forall i :: 0 <= i < nd ==> r[nf + i] == DistrictItem(localResults[i]))
    && (forall i :: 0 <= i < np ==> r[nf + nd + i] == PlaceItem(places[i]))
  }

  /** Laying the three capped groups end to end gives the merged list. */
  lemma GroupsLaidEndToEnd(favResults: seq<Favorite>, localResults: seq<string>, places: seq<KakaoPlace>,
                           favItems: seq<SearchResultItem>, districtItems: seq<SearchResultItem>, placeItems: seq<SearchResultItem>)
    requires |favItems| == Min(|favResults|, FavoriteCap)
    requires |districtItems| == Min(|localResults|, DistrictCap)
    requires |placeItems| == Min(|places|, PlaceCap)
    requires forall i :: 0 <= i < |favItems| ==> favItems[i] == FavoriteItem(favResults[i].location, favResults[i].nickname)
    requires forall i :: 0 <= i < |districtItems| ==> districtItems[i] == DistrictItem(localResults[i])
    requires forall i :: 0 <= i < |placeItems| ==> placeItems[i] == PlaceItem(places[i])
    ensures MergedFrom(favItems + districtItems + placeItems, favResults, localResults, places)
  {
    ConcatThreeIndex(favItems, districtItems, placeItems);
  }

  /** The merged list is the three capped groups laid end to end. A helper
      that hands this unfolding to proofs about regrouping the merged list. */
  lemma CombinedResultsPieces(favResults: seq<Favorite>, localResults: seq<string>, places: seq<KakaoPlace>)
    ensures CombinedResults(favResults, localResults, places)
      == FavoriteGroup(favResults) + DistrictGroup(localResults) + PlaceGroup(places)
  {
  }

  /** The list the search hook hands to the page: up to three favourites and
      five districts matching the live query, then up to ten remote places,
      present only for an accepted submitted query. */
  function Results(s: SearchState, favs: seq<Favorite>, gazetteer: seq<District>, isMatch: Matcher, fetched: seq<KakaoPlace>)
    : (r: seq<SearchResultItem>)
    ensures MergedFrom(r, FavoriteResults(favs, isMatch, s.searchQuery), LocalResults(gazetteer, isMatch, s.searchQuery),
                       if Utf16Length(s.submittedQuery) >= MinSubmitLength then fetched else [])
    ensures |r| <= FavoriteCap + DistrictCap + PlaceCap
    ensures s.searchQuery == "" && Utf16Length(s.submittedQuery) < MinSubmitLength ==> r == []
  {
    CombinedResults(
      FavoriteResults(favs, isMatch, s.searchQuery),
      LocalResults(gazetteer, isMatch, s.searchQuery),
      FetchedPlaces(s.submittedQuery, fetched))
  }

  /** The position of an item's group in the merged list. */
  function GroupRank(item: SearchResultItem): nat
  {
    match item
    case FavoriteItem(_, _) => 0
    case DistrictItem(_) => 1
    case PlaceItem(_) => 2
  }

  /** Favourites come before districts, which come before places. */
  lemma CombinedResultsGroupOrder(favResults: seq<Favorite>, localResults: seq<string>, places: seq<KakaoPlace>)
    ensures var r := CombinedResults(favResults, localResults, places);
      forall i, j :: 0 <= i < j < |r| ==> GroupRank(r[i]) <= GroupRank(r[j])
  {
  }

  /** Every district item of the merged list is one of the given districts,
      and every place item one of the given places. */
  lemma CombinedItemsFromSources(favResults: seq<Favorite>, localResults: seq<string>, places: seq<KakaoPlace>, i: nat)
    requires i < |CombinedResults(favResults, localResults, places)|
    ensures var item := CombinedResults(favResults, localResults, places)[i];
      && (item.FavoriteItem? ==> i < |favResults| && item == ToFavoriteItem(favResults[i]))
      && (item.DistrictItem? ==> item.district in localResults)
      && (item.PlaceItem? ==> item.place in places)
  {
    var nf, nd := Min(|favResults|, FavoriteCap), Min(|localResults|, DistrictCap);
    if i < nf {
    } else if i < nf + nd {
      assert localResults[i - nf] in localResults;
    } else {
      assert places[i - nf - nd] in places;
    }
  }

  /** With an empty live query the list holds only remote places. */
  lemma EmptyQueryShowsOnlyPlaces(s: SearchState, favs: seq<Favorite>, gazetteer: seq<District>, isMatch: Matcher, fetched: seq<KakaoPlace>)
    requires s.searchQuery == ""
    ensures var r := Results(s, favs, gazetteer, isMatch, fetched);
      forall i :: 0 <= i < |r| ==> r[i].PlaceItem?
  {
  }

  /** `item` shows a favourite of `favs` that matches `query`, under its nickname. */
  predicate ShowsMatchingFavorite(item: SearchResultItem, favs: seq<Favorite>, isMatch: Matcher, query: string)
  {
    exists fav :: fav in favs && FavoriteMatches(isMatch, query, fav) && item == FavoriteItem(fav.location, fav.nickname)
  }

  /** Every favourite item of the list is a favourite of the store that matches
      the trimmed live query, shown under its nickname. */
  lemma FavoriteItemsMatch(s: SearchState, favs: seq<Favorite>, gazetteer: seq<District>, isMatch: Matcher, fetched: seq<KakaoPlace>)
    ensures var r := Results(s, favs, gazetteer, isMatch, fetched);
      forall i :: 0 <= i < |r| && r[i].FavoriteItem? ==> ShowsMatchingFavorite(r[i], favs, isMatch, Trim(s.searchQuery))
  {
    var query := Trim(s.searchQuery);
    var fr := FavoriteResults(favs, isMatch, s.searchQuery);
    var lr := LocalResults(gazetteer, isMatch, s.searchQuery);
    var pl := FetchedPlaces(s.submittedQuery, fetched);
    var r := Results(s, favs, gazetteer, isMatch, fetched);
    SubsequenceElements(fr, favs);
    forall i | 0 <= i < |r| && r[i].FavoriteItem?
      ensures ShowsMatchingFavorite(r[i], favs, isMatch, query)
    {
      MergedFavoriteShown(r, fr, lr, pl, favs, isMatch, query, i);
    }
  }

  /** A favourite item of a merged list shows one of its favourite matches. */
  lemma MergedFavoriteShown(r: seq<SearchResultItem>, fr: seq<Favorite>, lr: seq<string>, pl: seq<KakaoPlace>,
                            favs: seq<Favorite>, isMatch: Matcher, query: string, i: nat)
    requires MergedFrom(r, fr, lr, pl)
    requires forall k :: 0 <= k < |fr| ==> fr[k] in favs && FavoriteMatches(isMatch, query, fr[k])
    requires i < |r| && r[i].FavoriteItem?
    ensures ShowsMatchingFavorite(r[i], favs, isMatch, query)
  {
    MergedKindByPosition(r, fr, lr, pl, i);
    assert r[i] == FavoriteItem(fr[i].location, fr[i].nickname);
  }

  /** In a merged list the favourites take exactly the first positions, the
      districts the next ones, and the places the rest. */
  lemma MergedKindByPosition(r: seq<SearchResultItem>, fr: seq<Favorite>, lr: seq<string>, pl: seq<KakaoPlace>, i: nat)
    requires MergedFrom(r, fr, lr, pl)
    requires i < |r|
    ensures var nf, nd := Min(|fr|, FavoriteCap), Min(|lr|, DistrictCap);
      && (r[i].FavoriteItem? <==> i < nf)
      && (r[i].DistrictItem? <==> nf <= i < nf + nd)
      && (r[i].PlaceItem? <==> nf + nd <= i)
  {
    var nf, nd := Min(|fr|, FavoriteCap), Min(|lr|, DistrictCap);
    if i < nf {
      assert r[i] == FavoriteItem(fr[i].location, fr[i].nickname);
    } else if i < nf + nd {
      var j := i - nf;
      assert r[nf + j] == DistrictItem(lr[j]);
    } else {
      var j := i - nf - nd;
      assert r[nf + nd + j] == PlaceItem(pl[j]);
    }
  }

  /** Remote places stay in the list after the live query is edited: nothing
      compares the submitted query with the current text. */
  lemma EditedQueryKeepsPlaces(s: SearchState, query: string, favs: seq<Favorite>, gazetteer: seq<District>, isMatch: Matcher, fetched: seq<KakaoPlace>)
    requires Utf16Length(s.submittedQuery) >= MinSubmitLength && |fetched| > 0
    ensures var r := Results(HandleInputChange(s, query), favs, gazetteer, isMatch, fetched);
      PlaceItem(fetched[0]) in r
  {
    var fr := FavoriteResults(favs, isMatch, query);
    var lr := LocalResults(gazetteer, isMatch, query);
    var r := Results(HandleInputChange(s, query), favs, gazetteer, isMatch, fetched);
    assert r[Min(|fr|, FavoriteCap) + Min(|lr|, DistrictCap)] == PlaceItem(fetched[0]);
  }

  /** The location a remote place turns into when chosen. The coordinate text
      is read by `parseFloat`, a parameter. */
  function ConvertToLocation(place: KakaoPlace, parseFloat: string -> real): (r: Location)
    ensures r.id == place.id && r.name == place.placeName
    ensures place.addressName != "" ==> r.address == place.addressName
    ensures place.addressName == "" ==> r.address == place.roadAddressName
    ensures r.address == "" <==> place.addressName == "" && place.roadAddressName == ""
    ensures r.address == PlaceAddress(place)
    ensures r.lat == parseFloat(place.y) && r.lon == parseFloat(place.x)
  {
    Location(place.id, place.placeName, PlaceAddress(place), parseFloat(place.y), parseFloat(place.x))
  }
}

=== FILE: search_page.dfy ===
/** The search page: dragging the mobile bottom sheet, and deciding what
    toggling a favourite does (confirm removal, refuse at capacity, or ask for
    a nickname). Favourite lookups by address are supplied by the caller. */
module SearchPage {
  import opened Types
  import opened Wrappers
  import FavoritesStore
  import Search

  /** Bottom-sheet heights, in percent of the viewport height. */
  const MinPanelHeight: real := 20.0
  const MidPanelHeight: real := 55.0
  const MaxPanelHeight: real := 85.0

  /** `panelHeight` is the sheet's height; `startHeight` its height when the current drag began. */
  datatype DragState = DragState(panelHeight: real, isDragging: bool, startHeight: real)

  const InitialDrag := DragState(MidPanelHeight, false, MidPanelHeight)

  function Clamp(x: real, lo: real, hi: real): real
  {
    if x < lo then lo else if x > hi then hi else x
  }

  predicate InPanelRange(h: real)
  {
    MinPanelHeight <= h <= MaxPanelHeight
  }

  /** Pressing the handle starts a drag from the current height. */
  function HandleDragStart(s: DragState): (r: DragState)
    ensures r.isDragging
    ensures r.startHeight == s.panelHeight && r.panelHeight == s.panelHeight
  {
    DragState(s.panelHeight, true, s.panelHeight)
  }

  /** Moving the pointer `deltaVh` percent of the viewport upwards since the drag
      began sets the height to the start height plus the movement, kept within
      [20, 85]. Outside a drag, movement does nothing. */
  function HandleDragMove(s: DragState, deltaVh: real): (r: DragState)
    ensures !s.isDragging ==> r == s
    ensures s.isDragging ==> InPanelRange(r.panelHeight)
    ensures s.isDragging && InPanelRange(s.startHeight + deltaVh) ==> r.panelHeight == s.startHeight + deltaVh
    ensures s.isDragging && s.startHeight + deltaVh < MinPanelHeight ==> r.panelHeight == MinPanelHeight
    ensures s.isDragging && s.startHeight + deltaVh > MaxPanelHeight ==> r.panelHeight == MaxPanelHeight
    ensures r.isDragging == s.isDragging && r.startHeight == s.startHeight
  {
    if !s.isDragging then s
    else s.(panelHeight := Clamp(s.startHeight + deltaVh, MinPanelHeight, MaxPanelHeight))
  }

  /** The snap point a released sheet settles at. */
  function Snap(h: real): (r: real)
    ensures r == MinPanelHeight || r == MidPanelHeight || r == MaxPanelHeight
    ensures h < 35.0 ==> r == MinPanelHeight
    ensures 35.0 <= h < 70.0 ==> r == MidPanelHeight
    ensures h >= 70.0 ==> r == MaxPanelHeight
  {
    if h < 35.0 then MinPanelHeight
    else if h < 70.0 then MidPanelHeight
    else MaxPanelHeight
  }

  /** Releasing the handle ends the drag and snaps the height. */
  function HandleDragEnd(s: DragState): (r: DragState)
    ensures !r.isDragging
    ensures r.panelHeight == Snap(s.panelHeight)
  {
    DragState(Snap(s.panelHeight), false, s.startHeight)
  }

  /** The snap points are exactly the heights snapping leaves alone. */
  lemma SnapFixedPoints(h: real)
    ensures Snap(h) == h <==> h == MinPanelHeight || h == MidPanelHeight || h == MaxPanelHeight
  {
  }

  /** Snapping is idempotent and never reverses the order of two heights. */
  lemma SnapIdempotentMonotone(h1: real, h2: real)
    ensures Snap(Snap(h1)) == Snap(h1)
    ensures h1 <= h2 ==> Snap(h1) <= Snap(h2)
  {
  }

  /** One pointer event on the sheet handle. */
  datatype DragEvent = Start | Move(deltaVh: real) | End

  function DragStep(s: DragState, e: DragEvent): DragState
  {
    match e
    case Start => HandleDragStart(s)
    case Move(deltaVh) => HandleDragMove(s, deltaVh)
    case End => HandleDragEnd(s)
  }

  function DragRun(s: DragState, events: seq<DragEvent>): DragState
    decreases |events|
  {
    if |events| == 0 then s else DragRun(DragStep(s, events[0]), events[1..])
  }

  predicate DragInvariant(s: DragState)
  {
    InPanelRange(s.panelHeight) && InPanelRange(s.startHeight)
  }

  /** Whatever the pointer does, the sheet stays between 20 and 85 percent. */
  lemma {:induction false} DragRunInRange(s: DragState, events: seq<DragEvent>)
    requires DragInvariant(s)
    ensures DragInvariant(DragRun(s, events))
    decreases |events|
  {
    if |events| > 0 {
      DragRunInRange(DragStep(s, events[0]), events[1..]);
    }
  }

  /** What a click on a favourite star leads to. */
  datatype Decision =
    | NoAction
    | ConfirmRemove(favoriteId: string, nickname: string)
    | LimitNotice
    | PromptNickname(location: Location)

  /** The id the geolocated position carries, and the name it is shown under without an address. */
  const CurrentLocationId: string := "current-location"
  const CurrentLocationLabel: string := "현재 위치"

  /** The address a location is known by for favourite lookups: for the current
      position, the reverse-geocoded address. */
  function LookupAddress(loc: Location, currentAddress: string): string
  {
    if loc.id == CurrentLocationId then currentAddress else loc.address
  }

  /** The name and address a saved current position gets: its reverse-geocoded
      address, or the label for the current position when that is empty. */
  function CurrentLabel(currentAddress: string): string
  {
    if currentAddress != "" then currentAddress else CurrentLocationLabel
  }

  /** Toggling the favourite of the location on the map. `getFavoriteByAddress`
      is the store's lookup by address; `freshCurrentId` is the id a saved
      current position receives (built from the clock). */
  function HandleToggleFavorite(
    mapLocation: Option<Location>, currentAddress: string, favoriteCount: nat,
    getFavoriteByAddress: string -> Option<Favorite>, freshCurrentId: string): (r: Decision)
    ensures mapLocation.None? ==> r == NoAction
    ensures mapLocation.Some? ==>
      var found := getFavoriteByAddress(LookupAddress(mapLocation.value, currentAddress));
      && (found.Some? ==> r == ConfirmRemove(found.value.id, found.value.nickname))
      && (found.None? && favoriteCount >= FavoritesStore.MaxFavorites ==> r == LimitNotice)
      && (found.None? && favoriteCount < FavoritesStore.MaxFavorites ==> r.PromptNickname?)
    ensures r.PromptNickname? ==> favoriteCount < FavoritesStore.MaxFavorites
    ensures r.PromptNickname? && mapLocation.value.id == CurrentLocationId ==>
      r.location == mapLocation.value.(id := freshCurrentId, name := CurrentLabel(currentAddress), address := CurrentLabel(currentAddress))
    ensures r.PromptNickname? && mapLocation.value.id != CurrentLocationId ==> r.location == mapLocation.value
  {
    if mapLocation.None? then NoAction
    else
      var loc := mapLocation.value;
      var existing := getFavoriteByAddress(LookupAddress(loc, currentAddress));
      if existing.Some? then ConfirmRemove(existing.value.id, existing.value.nickname)
      else if favoriteCount >= FavoritesStore.MaxFavorites then LimitNotice
      else if loc.id == CurrentLocationId then
        var shown := CurrentLabel(currentAddress);
        PromptNickname(loc.(id := freshCurrentId, name := shown, address := shown))
      else PromptNickname(loc)
  }

  /** The address lookup answers from the store: whatever it finds is a stored favourite. */
  ghost predicate LookupFromStore(favs: seq<Favorite>, getFavoriteByAddress: string -> Option<Favorite>)
  {
    forall a :: getFavoriteByAddress(a).Some? ==> getFavoriteByAddress(a).value in favs
  }

  /** Confirming the removal the toggle offers shrinks the store, and accepting
      the nickname prompt it offers is an add the store does not refuse. */
  lemma ToggleFavoriteFollowUp(
    favs: seq<Favorite>, mapLocation: Option<Location>, currentAddress: string,
    getFavoriteByAddress: string -> Option<Favorite>, freshCurrentId: string,
    nickname: string, freshId: string, now: int)
    requires LookupFromStore(favs, getFavoriteByAddress)
    ensures var d := HandleToggleFavorite(mapLocation, currentAddress, |favs|, getFavoriteByAddress, freshCurrentId);
      && (d.ConfirmRemove? ==> |FavoritesStore.RemoveFavorite(favs, d.favoriteId)| < |favs|)
      && (d.PromptNickname? ==> FavoritesStore.AddFavorite(favs, d.location, nickname, freshId, now).Success?)
  {
    var d := HandleToggleFavorite(mapLocation, currentAddress, |favs|, getFavoriteByAddress, freshCurrentId);
    if d.ConfirmRemove? {
      var found := getFavoriteByAddress(LookupAddress(mapLocation.value, currentAddress));
      assert found.value in favs;
      var k :| 0 <= k < |favs| && favs[k] == found.value;
      assert favs[k].id == d.favoriteId;
    }
  }

  /** Whether a result's star is lit: favourite items always, districts never,
      places when a favourite is saved under the place's address. */
  function IsResultFavorite(item: SearchResultItem, isFavoriteByAddress: string -> bool): (r: bool)
    ensures item.FavoriteItem? ==> r
    ensures item.DistrictItem? ==> !r
    ensures item.PlaceItem? && item.place.addressName != "" ==> (r <==> isFavoriteByAddress(item.place.addressName))
    ensures item.PlaceItem? && item.place.addressName == "" ==> (r <==> isFavoriteByAddress(item.place.roadAddressName))
  {
    match item
    case FavoriteItem(_, _) => true
    case PlaceItem(place) => isFavoriteByAddress(PlaceAddress(place))
    case DistrictItem(_) => false
  }

  /** The address a lit star's removal looks its favourite up by: a favourite's
      own address, a place's address, and none for a district. */
  function ToggleAddress(item: SearchResultItem): (r: string)
    ensures item.FavoriteItem? ==> r == item.location.address
    ensures item.PlaceItem? ==> r == Search.ConvertToLocation(item.place, _ => 0.0).address
    ensures item.DistrictItem? ==> r == ""
  {
    match item
    case FavoriteItem(loc, _) => loc.address
    case PlaceItem(place) => PlaceAddress(place)
    case DistrictItem(_) => ""
  }

  /** Toggling a favourite from the desktop result list. `isCurrentlyFavorite`
      is the star's state; `firstPlace` is the first remote place found for a
      district (looked up remotely), and `parseFloat` reads coordinate text. */
  function HandleCommandFavoriteToggle(
    item: SearchResultItem, isCurrentlyFavorite: bool, favoriteCount: nat,
    getFavoriteByAddress: string -> Option<Favorite>, firstPlace: Option<KakaoPlace>,
    parseFloat: string -> real): (r: Decision)
    ensures isCurrentlyFavorite ==> r.ConfirmRemove? || r.NoAction?
    ensures !isCurrentlyFavorite && favoriteCount >= FavoritesStore.MaxFavorites ==> r == LimitNotice
    ensures r.PromptNickname? ==> !isCurrentlyFavorite && favoriteCount < FavoritesStore.MaxFavorites
    ensures r.PromptNickname? && item.PlaceItem? ==> r.location == Search.ConvertToLocation(item.place, parseFloat)
    ensures r.PromptNickname? && item.DistrictItem? ==>
      firstPlace.Some? && r.location.id == firstPlace.value.id && r.location.name == item.district
      && r.location.address == (if firstPlace.value.addressName != "" then firstPlace.value.addressName else item.district)
      && r.location.lat == parseFloat(firstPlace.value.y) && r.location.lon == parseFloat(firstPlace.value.x)
    ensures item.FavoriteItem? ==> !r.PromptNickname?
    ensures isCurrentlyFavorite ==>
      var found := getFavoriteByAddress(ToggleAddress(item));
      r == if found.Some? then ConfirmRemove(found.value.id, found.value.nickname) else NoAction
    ensures !isCurrentlyFavorite && favoriteCount < FavoritesStore.MaxFavorites ==>
      && (item.PlaceItem? ==> r.PromptNickname?)
      && (item.DistrictItem? ==> (r.PromptNickname? <==> firstPlace.Some?))
      && (!r.PromptNickname? ==> r == NoAction)
    ensures !isCurrentlyFavorite && item.FavoriteItem? ==> r == NoAction || r == LimitNotice
  {
    if isCurrentlyFavorite then
      var found := getFavoriteByAddress(ToggleAddress(item));
      if found.Some? then ConfirmRemove(found.value.id, found.value.nickname) else NoAction
    else if favoriteCount >= FavoritesStore.MaxFavorites then LimitNotice
    else
      match item
      case PlaceItem(place) => PromptNickname(Search.ConvertToLocation(place, parseFloat))
      case DistrictItem(d) =>
        if firstPlace.Some? then
          var place := firstPlace.value;
          var address := if place.addressName != "" then place.addressName else d;
          PromptNickname(Location(place.id, d, address, parseFloat(place.y), parseFloat(place.x)))
        else NoAction
      case FavoriteItem(_, _) => NoAction
  }

  /** The star the result list shows and the toggle agree: a lit star never
      leads to the nickname prompt, and for a place, removal targets the very
      favourite the star was lit for. */
  lemma StarAndToggleAgree(
    item: SearchResultItem, favoriteCount: nat, getFavoriteByAddress: string -> Option<Favorite>,
    firstPlace: Option<KakaoPlace>, parseFloat: string -> real)
    requires item.PlaceItem?
    ensures var isFav := IsResultFavorite(item, a => getFavoriteByAddress(a).Some?);
      var d := HandleCommandFavoriteToggle(item, isFav, favoriteCount, getFavoriteByAddress, firstPlace, parseFloat);
      && (isFav ==> d == ConfirmRemove(getFavoriteByAddress(PlaceAddress(item.place)).value.id,
                                      getFavoriteByAddress(PlaceAddress(item.place)).value.nickname))
      && (!isFav && favoriteCount < FavoritesStore.MaxFavorites ==>
            d.PromptNickname? && getFavoriteByAddress(d.location.address).None?)
  {
  }
}

=== FILE: seqs.dfy ===
/** Order-preserving sequence operations shared by the search layer:
    JavaScript's `filter`, `map` and `slice(0, n)`, with their specifications. */
module Seqs {

  function Min(a: int, b: int): int
  {
    if a <= b then a else b
  }

  function Max(a: int, b: int): int
  {
    if a >= b then a else b
  }

  /** `a` is obtained from `b` by deleting elements, keeping the rest in order. */
  ghost predicate IsSubsequence<T>(a: seq<T>, b: seq<T>)
    decreases |b|
  {
    |a| == 0
    || (|b| > 0
        && ((a[0] == b[0] && IsSubsequence(a[1..], b[1..])) || IsSubsequence(a, b[1..])))
  }

  /** The number of elements of `s` that satisfy `p`. */
  ghost function CountWhere<T>(s: seq<T>, p: T -> bool): nat
  {
    if |s| == 0 then 0 else (if p(s[0]) then 1 else 0) + CountWhere(s[1..], p)
  }

  /** `r` is what filtering `s` with `p` must produce: an in-order subsequence of `s`
      made only of elements satisfying `p`, and as long as the number of such elements
      in `s`, so that none of them is dropped. */
  ghost predicate IsFilterOf<T>(r: seq<T>, s: seq<T>, p: T -> bool)
  {
    && IsSubsequence(r, s)
    && (forall i :: 0 <= i < |r| ==> p(r[i]))
    && |r| == CountWhere(s, p)
  }

  /** JavaScript's `Array.prototype.filter`. */
  function Filter<T>(s: seq<T>, p: T -> bool): (r: seq<T>)
    ensures |r| <= |s|
    ensures IsFilterOf(r, s, p)
  {
    if |s| == 0 then []
    else if p(s[0]) then [s[0]] + Filter(s[1..], p)
    else Filter(s[1..], p)
  }

  /** JavaScript's `Array.prototype.map`. */
  function Map<T, U>(s: seq<T>, f: T -> U): (r: seq<U>)
    ensures |r| == |s|
    ensures forall i :: 0 <= i < |s| ==> r[i] == f(s[i])
  {
    if |s| == 0 then [] else [f(s[0])] + Map(s[1..], f)
  }

  /** JavaScript's `slice(0, n)`: the first `n` elements, or all of `s` when it is shorter. */
  function Take<T>(s: seq<T>, n: nat): (r: seq<T>)
    ensures |r| == Min(n, |s|)
    ensures forall i :: 0 <= i < |r| ==> r[i] == s[i]
  {
    if n <= |s| then s[..n] else s
  }

  /** Where the elements of three sequences laid end to end sit. */
  lemma ConcatThreeIndex<T>(a: seq<T>, b: seq<T>, c: seq<T>)
    ensures var r := a + b + c;
      && |r| == |a| + |b| + |c|
      && (forall i :: 0 <= i < |a| ==> r[i] == a[i])
      && (forall i :: 0 <= i < |b| ==> r[|a| + i] == b[i])
      && (forall i :: 0 <= i < |c| ==> r[|a| + |b| + i] == c[i])
  {
  }

  /** Every element of a subsequence occurs in the sequence it was taken from. */
  lemma {:induction false} SubsequenceElements<T>(a: seq<T>, b: seq<T>)
    requires IsSubsequence(a, b)
    ensures forall i :: 0 <= i < |a| ==> a[i] in b
    decreases |b|
  {
    if |a| == 0 {
    } else if a[0] == b[0] && IsSubsequence(a[1..], b[1..]) {
      SubsequenceElements(a[1..], b[1..]);
      assert forall i :: 1 <= i < |a| ==> a[i] == a[1..][i - 1];
    } else {
      SubsequenceElements(a, b[1..]);
    }
  }

  /** A subsequence of `s` made of elements satisfying `p` is no longer than
      the number of such elements in `s`. */
  lemma {:induction false} SubsequenceCountBound<T>(a: seq<T>, s: seq<T>, p: T -> bool)
    requires IsSubsequence(a, s)
    requires forall i :: 0 <= i < |a| ==> p(a[i])
    ensures |a| <= CountWhere(s, p)
    decreases |s|
  {
    if |a| == 0 {
    } else if a[0] == s[0] && IsSubsequence(a[1..], s[1..]) {
      SubsequenceCountBound(a[1..], s[1..], p);
    } else {
      SubsequenceCountBound(a, s[1..], p);
    }
  }

  /** The filter of a sequence is unique: anything meeting the filter
      specification is exactly `Filter(s, p)`. */
  lemma {:induction false} FilterUnique<T>(r: seq<T>, s: seq<T>, p: T -> bool)
    requires IsFilterOf(r, s, p)
    ensures r == Filter(s, p)
    decreases |s|
  {
    if |s| > 0 && |r| > 0 {
      var t := s[1..];
      var r' := r[1..];
      assert forall i :: 0 <= i < |r'| ==> p(r'[i]) by {
        forall i | 0 <= i < |r'| ensures p(r'[i]) { assert r'[i] == r[i + 1]; }
      }
      if p(s[0]) {
        if !(r[0] == s[0] && IsSubsequence(r', t)) {
          SubsequenceCountBound(r, t, p);
          assert false;
        }
        FilterUnique(r', t, p);
        assert r == [r[0]] + r';
      } else {
        if r[0] == s[0] && IsSubsequence(r', t) {
          assert false;
        }
        FilterUnique(r, t, p);
      }
    }
  }

  /** Every element of `s` that satisfies `p` survives the filter. */
  lemma {:induction false} FilterKeeps<T>(s: seq<T>, p: T -> bool, k: nat)
    requires k < |s| && p(s[k])
    ensures s[k] in Filter(s, p)
    decreases |s|
  {
    if k > 0 {
      FilterKeeps(s[1..], p, k - 1);
    }
  }

  /** Filtering with a predicate that holds everywhere on `s` returns `s`. */
  lemma {:induction false} FilterAll<T>(s: seq<T>, p: T -> bool)
    requires forall i :: 0 <= i < |s| ==> p(s[i])
    ensures Filter(s, p) == s
    decreases |s|
  {
    if |s| > 0 {
      FilterAll(s[1..], p);
      assert s == [s[0]] + s[1..];
    }
  }

  /** Filtering with a predicate that fails everywhere on `s` returns nothing. */
  lemma {:induction false} FilterNone<T>(s: seq<T>, p: T -> bool)
    requires forall i :: 0 <= i < |s| ==> !p(s[i])
    ensures Filter(s, p) == []
    decreases |s|
  {
    if |s| > 0 {
      FilterNone(s[1..], p);
    }
  }

  /** Filtering distributes over concatenation. */
  lemma {:induction false} FilterConcat<T>(a: seq<T>, b: seq<T>, p: T -> bool)
    ensures Filter(a + b, p) == Filter(a, p) + Filter(b, p)
    decreases |a|
  {
    if |a| == 0 {
      assert a + b == b;
    } else {
      assert (a + b)[0] == a[0];
      assert (a + b)[1..] == a[1..] + b;
      FilterConcat(a[1..], b, p);
    }
  }

  /** Filtering distributes over concatenating three lists. */
  lemma FilterOfThree<T>(a: seq<T>, b: seq<T>, c: seq<T>, p: T -> bool)
    ensures Filter(a + b + c, p) == Filter(a, p) + Filter(b, p) + Filter(c, p)
  {
    FilterConcat(a + b, c, p);
    FilterConcat(a, b, p);
  }

  /** Filtering three runs, of which only run `k` satisfies `p`, keeps exactly run `k`. */
  lemma FilterOfTypedRuns<T>(a: seq<T>, b: seq<T>, c: seq<T>, p: T -> bool, k: nat)
    requires k <= 2
    requires forall i :: 0 <= i < |a| ==> p(a[i]) == (k == 0)
    requires forall i :: 0 <= i < |b| ==> p(b[i]) == (k == 1)
    requires forall i :: 0 <= i < |c| ==> p(c[i]) == (k == 2)
    ensures Filter(a + b + c, p) == if k == 0 then a else if k == 1 then b else c
  {
    FilterOfThree(a, b, c, p);
    if k == 0 { FilterAll(a, p); } else { FilterNone(a, p); }
    if k == 1 { FilterAll(b, p); } else { FilterNone(b, p); }
    if k == 2 { FilterAll(c, p); } else { FilterNone(c, p); }
  }

  /** Adding an element to any one of three sequences adds it to the multiset of all three. */
  lemma JoinGroupMultiset<T>(x: T, a: seq<T>, b: seq<T>, c: seq<T>)
    ensures multiset(([x] + a) + b + c) == multiset([x]) + multiset(a + b + c)
    ensures multiset(a + ([x] + b) + c) == multiset([x]) + multiset(a + b + c)
    ensures multiset(a + b + ([x] + c)) == multiset([x]) + multiset(a + b + c)
  {
  }

  /** A filter that drops an element of `s` is strictly shorter than `s`. */
  lemma {:induction false} FilterShrinks<T>(s: seq<T>, p: T -> bool, k: nat)
    requires k < |s| && !p(s[k])
    ensures |Filter(s, p)| < |s|
    decreases |s|
  {
    if k > 0 {
      FilterShrinks(s[1..], p, k - 1);
    }
  }

  /** Two predicates that agree on every element of `s` filter it alike. */
  lemma {:induction false} FilterCongruent<T>(s: seq<T>, p: T -> bool, q: T -> bool)
    requires forall i :: 0 <= i < |s| ==> p(s[i]) == q(s[i])
    ensures Filter(s, p) == Filter(s, q)
    decreases |s|
  {
    if |s| > 0 {
      FilterCongruent(s[1..], p, q);
    }
  }

  /** Mapping distributes over concatenation. */
  lemma MapConcat<T, U>(a: seq<T>, b: seq<T>, f: T -> U)
    ensures Map(a + b, f) == Map(a, f) + Map(b, f)
  {
  }
}

=== FILE: text.dfy ===
/** String helpers with JavaScript semantics: `String.prototype.trim`,
    `Array.prototype.join` and a string's `length`. */
module Text {
  import opened Seqs

  /** The code points ECMAScript's `trim` removes: the WhiteSpace and
      LineTerminator productions (tab, vertical tab, form feed, space, no-break
      space, the byte order mark, the Unicode space separators, line feed,
      carriage return, line and paragraph separators). */
  predicate IsWhitespace(c: char)
  {
    || c == '\t' || c == '\U{000B}' || c == '\U{000C}' || c == ' '
    || c == '\U{00A0}' || c == '\U{FEFF}' || c == '\U{1680}'
    || ('\U{2000}' <= c <= '\U{200A}')
    || c == '\U{202F}' || c == '\U{205F}' || c == '\U{3000}'
    || c == '\n' || c == '\r' || c == '\U{2028}' || c == '\U{2029}'
  }

  /** Every character of `s` is whitespace. */
  predicate AllWhitespace(s: string)
  {
    forall i :: 0 <= i < |s| ==> IsWhitespace(s[i])
  }

  /** `s` neither starts nor ends with whitespace. */
  predicate IsTrimmed(s: string)
  {
    |s| == 0 || (!IsWhitespace(s[0]) && !IsWhitespace(s[|s| - 1]))
  }

  /** Drops the longest whitespace prefix. */
  function TrimStart(s: string): (r: string)
    ensures |r| <= |s| && r == s[|s| - |r|..]
    ensures AllWhitespace(s[..|s| - |r|])
    ensures |r| > 0 ==> !IsWhitespace(r[0])
  {
    if |s| > 0 && IsWhitespace(s[0]) then
      var r := TrimStart(s[1..]);
      WhitespaceHead(s, r);
      r
    else s
  }

  /** Drops the longest whitespace suffix. */
  function TrimEnd(s: string): (r: string)
    ensures |r| <= |s| && r == s[..|r|]
    ensures AllWhitespace(s[|r|..])
    ensures |r| > 0 ==> !IsWhitespace(r[|r| - 1])
  {
    if |s| > 0 && IsWhitespace(s[|s| - 1]) then
      var r := TrimEnd(s[..|s| - 1]);
      WhitespaceTail(s, r);
      r
    else s
  }

  /** A whitespace character in front of a suffix of `s[1..]` that follows
      only whitespace extends that whitespace run. */
  lemma WhitespaceHead(s: string, r: string)
    requires |s| > 0 && IsWhitespace(s[0])
    requires |r| <= |s| - 1 && r == s[1..][|s| - 1 - |r|..]
    requires AllWhitespace(s[1..][..|s| - 1 - |r|])
    ensures r == s[|s| - |r|..]
    ensures AllWhitespace(s[..|s| - |r|])
  {
    assert s[..|s| - |r|] == [s[0]] + s[1..][..|s| - 1 - |r|];
  }

  /** A whitespace character after a prefix of `s[..|s| - 1]` that is followed
      only by whitespace extends that whitespace run. */
  lemma WhitespaceTail(s: string, r: string)
    requires |s| > 0 && IsWhitespace(s[|s| - 1])
    requires |r| <= |s| - 1 && r == s[..|s| - 1][..|r|]
    requires AllWhitespace(s[..|s| - 1][|r|..])
    ensures r == s[..|r|]
    ensures AllWhitespace(s[|r|..])
  {
    assert s[|r|..] == s[..|s| - 1][|r|..] + [s[|s| - 1]];
  }

  /** `r` is the slice of `s` starting at `k`, and everything of `s` around it is whitespace. */
  predicate TrimmedAt(s: string, k: int, r: string)
  {
    && 0 <= k <= |s| - |r|
    && r == s[k..k + |r|]
    && AllWhitespace(s[..k])
    && AllWhitespace(s[k + |r|..])
  }

  /** JavaScript's `String.prototype.trim`: `s` with its leading and trailing
      whitespace removed. */
  function Trim(s: string): (r: string)
    ensures IsTrimmed(r)
    ensures |r| <= |s|
    ensures exists k :: TrimmedAt(s, k, r)
  {
    var t := TrimStart(s);
    var r := TrimEnd(t);
    TrimmedAtOf(s, t, r);
    TrimmedOf(t, r);
    r
  }

  /** Removing a trailing run from a string that starts with a non-whitespace
      character, and ending on a non-whitespace one, leaves a trimmed string. */
  lemma TrimmedOf(t: string, r: string)
    requires |r| <= |t| && r == t[..|r|]
    requires |t| > 0 ==> !IsWhitespace(t[0])
    requires |r| > 0 ==> !IsWhitespace(r[|r| - 1])
    ensures IsTrimmed(r)
  {
    assert |r| > 0 ==> r[0] == t[0];
  }

  /** Removing a whitespace prefix and then a whitespace suffix leaves a
      slice of `s` surrounded by whitespace. */
  lemma TrimmedAtOf(s: string, t: string, r: string)
    requires |t| <= |s| && t == s[|s| - |t|..] && AllWhitespace(s[..|s| - |t|])
    requires |r| <= |t| && r == t[..|r|] && AllWhitespace(t[|r|..])
    ensures TrimmedAt(s, |s| - |t|, r)
  {
    var k := |s| - |t|;
    assert r == s[k..k + |r|];
    assert s[k + |r|..] == t[|r|..];
  }

  /** Trimming a string that is already trimmed changes nothing. */
  lemma TrimOfTrimmed(s: string)
    requires IsTrimmed(s)
    ensures Trim(s) == s
  {
    assert TrimStart(s) == s;
    assert TrimEnd(s) == s;
  }

  /** `trim` is idempotent. */
  lemma TrimIdempotent(s: string)
    ensures Trim(Trim(s)) == Trim(s)
  {
    TrimOfTrimmed(Trim(s));
  }

  /** A string trims to the empty string exactly when it is all whitespace. */
  lemma TrimEmptyIff(s: string)
    ensures Trim(s) == [] <==> AllWhitespace(s)
  {
    var r := Trim(s);
    var k :| TrimmedAt(s, k, r);
    if r == [] {
      assert s == s[..k] + s[k..];
      forall i | 0 <= i < |s|
        ensures IsWhitespace(s[i])
      {
        if i < k {
          assert s[i] == s[..k][i];
        } else {
          assert s[i] == s[k..][i - k];
        }
      }
    }
  }

  /** A character outside the Basic Multilingual Plane, stored by JavaScript as a surrogate pair. */
  predicate IsAstral(c: char)
  {
    c > '\U{FFFF}'
  }

  /** JavaScript's `length`: the number of UTF-16 code units, two for each
      character outside the Basic Multilingual Plane. */
  function Utf16Length(s: string): (r: nat)
    ensures r == |s| + CountWhere(s, IsAstral)
    ensures |s| <= r <= 2 * |s|
    ensures r == |s| <==> forall i :: 0 <= i < |s| ==> !IsAstral(s[i])
    ensures r == 0 <==> s == []
  {
    if |s| == 0 then 0
    else
      var rest := Utf16Length(s[1..]);
      assert forall i :: 1 <= i < |s| ==> s[i] == s[1..][i - 1];
      (if IsAstral(s[0]) then 2 else 1) + rest
  }

  /** Two emoji are four UTF-16 code units long, as JavaScript counts them. */
  lemma TwoAstralCharactersAreFourUnits()
    ensures Utf16Length("\U{1F600}\U{1F600}") == 4
  {
    assert IsAstral('\U{1F600}');
  }

  /** JavaScript's `Array.prototype.join(sep)`. */
  function Join(parts: seq<string>, sep: string): (r: string)
    ensures |parts| == 0 ==> r == []
    ensures |parts| == 1 ==> r == parts[0]
  {
    if |parts| == 0 then []
    else if |parts| == 1 then parts[0]
    else parts[0] + sep + Join(parts[1..], sep)
  }

  /** Joining one more part appends the separator and that part. */
  lemma {:induction false} JoinAppend(parts: seq<string>, p: string, sep: string)
    requires |parts| > 0
    ensures Join(parts + [p], sep) == Join(parts, sep) + sep + p
    decreases |parts|
  {
    if |parts| > 1 {
      JoinAppend(parts[1..], p, sep);
      assert (parts + [p])[1..] == parts[1..] + [p];
    }
  }
}

=== FILE: types.dfy ===
/** The records the search layer works on: locations, remote places,
    favourites, districts and the typed items of the merged result list. */
module Types {

  /** An administrative district name from the gazetteer, levels joined by `-`. */
  type District = string

  /** A selectable point on the map. */
  datatype Location = Location(id: string, name: string, address: string, lat: real, lon: real)

  /** A place record returned by the remote place search; the coordinates arrive as text. */
  datatype KakaoPlace = KakaoPlace(
    id: string,
    placeName: string,
    addressName: string,
    roadAddressName: string,
    x: string,
    y: string,
    categoryName: string)

  /** A saved location with the user's nickname for it. */
  datatype Favorite = Favorite(id: string, location: Location, nickname: string, createdAt: int)

  /** One entry of the merged search result list, tagged by where it came from.
      A favourite item carries the saved location and its nickname, a district
      item the display form of the district, a place item the remote record. */
  datatype SearchResultItem =
    | FavoriteItem(location: Location, favoriteNickname: string)
    | DistrictItem(district: District)
    | PlaceItem(place: KakaoPlace)

  /** The Korean text matcher `isMatch(candidate, query)` of an external
      library; the model never looks inside it. */
  type Matcher = (string, string) -> bool

  predicate IsFavoriteItem(item: SearchResultItem)
  {
    item.FavoriteItem?
  }

  predicate IsNonFavoriteItem(item: SearchResultItem)
  {
    !item.FavoriteItem?
  }

  predicate IsDistrictItem(item: SearchResultItem)
  {
    item.DistrictItem?
  }

  predicate IsPlaceItem(item: SearchResultItem)
  {
    item.PlaceItem?
  }

  /** The address a place is known by: `address_name || road_address_name`. */
  function PlaceAddress(place: KakaoPlace): string
  {
    if place.addressName != "" then place.addressName else place.roadAddressName
  }
}

=== FILE: weather.dfy ===
/** Weather advice: a message chosen from the weather condition code and the
    temperature, and an icon chosen from the code alone. Codes follow the
    OpenWeather condition groups (2xx thunderstorm, 3xx drizzle, 5xx rain,
    6xx snow, 7xx atmosphere, 800 clear, 80x clouds). */
module Weather {

  const HeatMessage: string := "폭염이 예상됩니다. 이동 시 충분한 수분 섭취와 휴식을 취하세요."
  const ColdMessage: string := "한파가 예상됩니다. 이동 시 방한에 유의하세요."
  const ThunderMessage: string := "천둥번개가 예상됩니다. 실외 활동을 자제하고 안전한 곳에 머무르세요."
  const RainMessage: string := "비가 예상됩니다. 우산을 챙기시고 방문 시 주의하세요."
  const SnowMessage: string := "눈이 예상됩니다. 도로가 미끄러울 수 있으니 이동 시 주의하세요."
  const LowVisibilityMessage: string := "시야가 좋지 않을 수 있습니다. 이동 시 주의하세요."
  const ClearMessage: string := "날씨가 맑습니다. 오늘 예약하러 가셔도 좋겠는데요?"
  const PleasantMessage: string := "쾌적한 날씨입니다. 방문하기 좋은 날이에요!"
  const CloudyMessage: string := "구름이 많지만 나쁘지 않은 날씨입니다."
  const DefaultMessage: string := "날씨를 확인하시고 방문 계획을 세우세요."

  const ThunderIcon: string := "⛈️"
  const RainIcon: string := "🌧️"
  const SnowIcon: string := "❄️"
  const MistIcon: string := "🌫️"
  const ClearIcon: string := "☀️"
  const CloudIcon: string := "☁️"
  const DefaultIcon: string := "🌤️"

  /** Temperatures at which the extreme-temperature messages take over. */
  const HeatThreshold: real := 33.0
  const ColdThreshold: real := -10.0

  /** Neither the heat nor the cold warning applies. */
  predicate Moderate(temp: real)
  {
    ColdThreshold < temp < HeatThreshold
  }

  /** The advice shown for condition `code` at temperature `temp`. */
  function GetWeatherMessage(code: int, temp: real): (r: string)
    ensures temp >= HeatThreshold ==> r == HeatMessage
    ensures temp <= ColdThreshold ==> r == ColdMessage
    ensures Moderate(temp) && 200 <= code < 300 ==> r == ThunderMessage
    ensures Moderate(temp) && (300 <= code < 400 || 500 <= code < 600) ==> r == RainMessage
    ensures Moderate(temp) && 600 <= code < 700 ==> r == SnowMessage
    ensures Moderate(temp) && 700 <= code < 800 ==> r == LowVisibilityMessage
    ensures Moderate(temp) && code == 800 ==> r == ClearMessage
    ensures Moderate(temp) && 800 < code < 900 ==> (r == PleasantMessage <==> 15.0 <= temp <= 25.0)
    ensures Moderate(temp) && 800 < code < 900 ==> (r == PleasantMessage || r == CloudyMessage)
    ensures Moderate(temp) && (code < 200 || 400 <= code < 500 || code >= 900) ==> r == DefaultMessage
  {
    if temp >= HeatThreshold then HeatMessage
    else if temp <= ColdThreshold then ColdMessage
    else if 200 <= code < 300 then ThunderMessage
    else if (300 <= code < 400) || (500 <= code < 600) then RainMessage
    else if 600 <= code < 700 then SnowMessage
    else if 700 <= code < 800 then LowVisibilityMessage
    else if code == 800 then ClearMessage
    else if 800 < code < 900 then
      if 15.0 <= temp <= 25.0 then PleasantMessage else CloudyMessage
    else DefaultMessage
  }

  /** The icon for condition `code`. */
  function GetWeatherIcon(code: int): (r: string)
    ensures 200 <= code < 300 ==> r == ThunderIcon
    ensures 300 <= code < 400 || 500 <= code < 600 ==> r == RainIcon
    ensures 600 <= code < 700 ==> r == SnowIcon
    ensures 700 <= code < 800 ==> r == MistIcon
    ensures code == 800 ==> r == ClearIcon
    ensures 800 < code < 900 ==> r == CloudIcon
    ensures code < 200 || 400 <= code < 500 || code >= 900 ==> r == DefaultIcon
  {
    if 200 <= code < 300 then ThunderIcon
    else if 300 <= code < 400 then RainIcon
    else if 500 <= code < 600 then RainIcon
    else if 600 <= code < 700 then SnowIcon
    else if 700 <= code < 800 then MistIcon
    else if code == 800 then ClearIcon
    else if 800 < code < 900 then CloudIcon
    else DefaultIcon
  }

  /** Outside the temperature extremes, message and icon tell the same story:
      each icon goes with exactly its own messages. */
  lemma MessageAgreesWithIcon(code: int, temp: real)
    requires Moderate(temp)
    ensures var m, i := GetWeatherMessage(code, temp), GetWeatherIcon(code);
      && (i == ThunderIcon <==> m == ThunderMessage)
      && (i == RainIcon <==> m == RainMessage)
      && (i == SnowIcon <==> m == SnowMessage)
      && (i == MistIcon <==> m == LowVisibilityMessage)
      && (i == ClearIcon <==> m == ClearMessage)
      && (i == CloudIcon <==> m == PleasantMessage || m == CloudyMessage)
      && (i == DefaultIcon <==> m == DefaultMessage)
  {
  }

  /** The extremes override the condition: the message no longer depends on the code. */
  lemma ExtremesIgnoreCode(code1: int, code2: int, temp: real)
    requires !Moderate(temp)
    ensures GetWeatherMessage(code1, temp) == GetWeatherMessage(code2, temp)
  {
  }
}

=== FILE: wrappers.dfy ===
/** Option and Result values standing in for `undefined` lookups and thrown errors. */
module Wrappers {

  /** A value that may be absent, as a JavaScript `find` that returns `undefined`. */
  datatype Option<+T> = None | Some(value: T)

  /** The outcome of an operation that throws on failure. */
  datatype Result<+R, +E> = Success(value: R) | Failure(error: E)
}
